=== FILE: README.md ===
# phdquestgen quest model

phdquestgen turns a small plain-text "quest" into HTML. Each line of a quest is either:

- a **stage**: an optional bracketed, comma-separated list of tags, then an action, as in `[event,boss] defend the thesis`;
- the `---` **"you are here" marker**.

The tags are `event`, `boss`, `miniboss` and any other alphanumeric word that does not begin with `event`, `boss` or `miniboss`. A word that does, such as `events`, makes the whole tag list fail, and the list then ends up in the action (`ParserLemmas.KeywordPrefixTags`, `ParserLemmas.KeywordPrefixLine`).

This project models the two pieces that hold the program's logic:

- **The grammar** (`src/parser.rs`): a `nom` parser from text to `Quest { lines }`. It is pure, so it is modelled as functions and lemmas.
  - Module `Nom` gives the exact behaviour of the primitive parsers the grammar uses: `tag`, `newline`, `alphanumeric1`, `multispace0` and `not_line_ending`.
  - Module `Parser` writes each grammar rule out:
    - `alt` becomes "the first alternative that does not fail";
    - `opt` becomes "on failure, nothing, and no input consumed";
    - each `separated_list0` becomes a head function plus a repetition that backtracks over a separator whose element fails.
  - `ParserLemmas` proves what the grammar guarantees:
    - a printer (`PrintLine`, `PrintQuest`) whose output parses back to the same quest;
    - the keyword order;
    - where a malformed tag list goes;
    - how indentation, blank lines, Windows line endings and text after the marker are treated.
  - `ParserExamples` works through the source's unit tests, including the five-line sample quest.
- **The renderer** (`src/quest.rs`): each tag becomes a symbol, each stage a `div`, and the marker a fixed block.
  - `generate` is a loop that raises an `is_future` flag at the first marker and pushes one block per line. It is modelled as the method `Render.RenderLines`, proved equal to the fold `Render.Blocks`, and called by `Render.Generate`.
  - `RenderLemmas` proves, for every position, what the block at that position is:
    - the marker block exactly at markers;
    - `stage future` exactly after a marker;
    - `stage` exactly before one.
  - `RenderExamples` covers the renderer's unit tests.

`Strings` holds Rust's `join`. `Wrappers` holds `Option` and `anyhow::Result`; an error carries only its message.

Three behaviours of the code are worth knowing:

- **Unterminated tag list.** An unterminated `[` does not make a line fail: `opt(parse_options)` drops a tag list that does not parse, so the raw text, bracket included, becomes the action (`ParserLemmas.UnclosedBracket`).
- **Windows line endings.** A CRLF after text on a line makes `parse` fail (`ParserLemmas.CarriageReturnRejected`). A CRLF that ends a blank line is different: the `multispace0` at the start of the next line swallows it, so the blank line disappears (`ParserExamples.BlankCarriageReturnExample`).
- **Tag enum.** `encode` in `src/quest.rs` matches `Fail` and `Research`, but the tag enum in `src/parser.rs` has no such variants. The model uses the enum from `src/parser.rs`.

## Model

| member | source | states |
|---|---|---|
| Nom.Tag | src/parser.rs:73 | `tag` succeeds exactly when the input starts with the literal. It then returns the literal and the input after it. |
| Nom.Newline | src/parser.rs:104 | `newline` accepts exactly a leading line feed and consumes only it. A carriage return is not accepted. |
| Nom.Alphanumeric1 | src/parser.rs:58 | `alphanumeric1` succeeds exactly on a leading ASCII letter or digit. It takes the longest such run: non-empty, all alphanumeric, followed by a non-alphanumeric or the end. |
| Nom.Multispace0 | src/parser.rs:79-81 | `multispace0` never fails. It splits the input into a run of spaces, tabs, CRs and LFs, and a rest that starts with none of them. |
| Nom.NotLineEnding | src/parser.rs:81 | `not_line_ending` on success returns a prefix with no CR or LF. The rest is empty or starts with "\n" or "\r\n". |
| Nom.NotLineEndingFails | src/parser.rs:81 | `not_line_ending` fails exactly when the first line-ending character is a carriage return not followed by a line feed. |
| Strings.Join | src/quest.rs:32 | `join`: no parts give the empty string, one part gives itself, and otherwise the result starts with the first part. |
| Parser.ParseOtherOption | src/parser.rs:57-60 | Succeeds exactly on a leading alphanumeric. It yields `Other(name)`: `name` is non-empty, all alphanumeric and maximal, and is exactly the consumed text. |
| Parser.ParseOption | src/parser.rs:62-69 | Fails exactly when the input does not start with an alphanumeric. On success the consumed text is the tag's spelling, and input is consumed. |
| Parser.OptionList | src/parser.rs:73 | `separated_list0(tag(","), parse_option)` never fails. The consumed text is the comma-separated spelling of the tags returned, in order. |
| Parser.OptionListTail | src/parser.rs:73 | The repetition of `separated_list0`: the consumed text is each returned tag preceded by its comma. |
| Parser.ParseOptions | src/parser.rs:71-75 | On success the consumed text is `[`, the tags' spelling in order, then `]`. |
| Parser.ParseStage | src/parser.rs:77-94 | The action contains no CR or LF and does not begin with whitespace. What is left is empty or starts a line ending. |
| Parser.ParseLine | src/parser.rs:96-101 | The line is the marker exactly when `---` follows the leading whitespace. The marker consumes exactly that whitespace and `---`. |
| Parser.ParseQuest | src/parser.rs:103-106 | `parse_quest` never fails, so the `unwrap` in `parse` cannot panic. With no lines it consumes nothing. |
| Parser.LineListTail | src/parser.rs:104 | The repetition of `separated_list0(newline, parse_line)` never grows the input, and it consumes nothing when it yields no line. |
| Parser.Parse | src/parser.rs:108-116 | Ok exactly when `parse_quest` leaves nothing. The Ok value is its quest, with at least one line. Otherwise the error is "Parse failed with remaining " followed by the remainder. |
| ParserLemmas.Multispace0Of | src/parser.rs:79 | Whitespace followed by a non-whitespace character or the end is exactly what `multispace0` takes. |
| ParserLemmas.Alphanumeric1Of | src/parser.rs:58 | A non-empty alphanumeric word followed by a non-alphanumeric or the end is exactly what `alphanumeric1` takes. |
| ParserLemmas.NotLineEndingOf | src/parser.rs:81 | Text without CR or LF, followed by the end, "\n" or "\r\n", is exactly what `not_line_ending` takes. |
| ParserLemmas.WholeRestOfLine | src/parser.rs:81 | `not_line_ending` takes all of an input that has no line ending. |
| ParserLemmas.KeywordInWord | src/parser.rs:62-69 | A keyword found at the start of an alphanumeric word followed by a delimiter lies inside that word. |
| ParserLemmas.OptionRoundTrip | src/parser.rs:62-69 | A well-formed tag's spelling, followed by a delimiter, parses back to that tag and leaves the delimiter. |
| ParserLemmas.OptionListTailRoundTrip | src/parser.rs:73 | The comma-prefixed spelling of well-formed tags, followed by `]`, parses back to the same tags in order. |
| ParserLemmas.OptionListRoundTrip | src/parser.rs:73 | The comma-separated spelling of well-formed tags, followed by `]`, parses back to the same tags in order. |
| ParserLemmas.OptionsRoundTrip | src/parser.rs:71-75 | `[` + the tags' spelling + `]` parses back to exactly those tags, in order, whatever follows. |
| ParserLemmas.StageRoundTrip | src/parser.rs:77-94 | A printed well-formed stage followed by the end or a line feed parses back to the same stage and stops at the line feed. |
| ParserLemmas.LineRoundTrip | src/parser.rs:96-101 | A printed well-formed line (stage or marker) parses back to the same line. |
| ParserLemmas.PrintedLineText | src/parser.rs:96-101 | A printed well-formed line parses back to itself whatever line follows it. |
| ParserLemmas.QuestRoundTrip | src/parser.rs:103-116 | Printing a well-formed quest and parsing the text gives `Ok` of the same quest. |
| ParserLemmas.KeywordsWin | src/parser.rs:62-69 | Text spelled as `event`, `boss` or `miniboss` always yields the known tag, whatever follows, never `Other`. |
| ParserLemmas.KeywordOption | src/parser.rs:62-69 | Each known tag's spelling parses to that tag, whatever follows. |
| ParserLemmas.OtherOnlyFromWord | src/parser.rs:57-60 | An `Other` tag comes only from input not starting with a keyword. It is exactly `parse_other_option`'s result, and its name is exactly the consumed text. |
| ParserLemmas.StageWithoutList | src/parser.rs:80-86 | When no tag list parses after the leading whitespace, the tags are empty. The action is the rest of the line after that whitespace. |
| ParserLemmas.WholeLineIsAction | src/parser.rs:80-86 | A one-line input that starts with neither whitespace, `---` nor a tag list is a stage with no tags whose action is the whole line. |
| ParserLemmas.UnclosedBracket | src/parser.rs:80-86 | A line starting with `[` that has no `]` is a stage with no tags whose action is the whole line, bracket included. |
| ParserLemmas.OptionListTailStops | src/parser.rs:73 | The tag list stops, consuming nothing, before anything but a comma. |
| ParserLemmas.OptionListOfOne | src/parser.rs:73 | A tag not followed by a further comma-tag pair gives a one-tag list. |
| ParserLemmas.OptionListTailBacktrack | src/parser.rs:73 | A comma not followed by a tag is not consumed: `separated_list0` backtracks to before it. |
| ParserLemmas.Unclosed | src/parser.rs:73 | A tag list that stops before something other than `]` makes `parse_options` fail. |
| ParserLemmas.KeywordPrefixTags | src/parser.rs:62-73 | `[eventful...`: a keyword directly followed by more alphanumerics makes the tag list fail. |
| ParserLemmas.KeywordPrefixLine | src/parser.rs:80-86 | A one-line input `[` + keyword + more alphanumerics + rest of line is a stage with no tags whose action is the whole line, bracket included. |
| ParserLemmas.StrayCommaTags | src/parser.rs:73 | A keyword followed by a comma and then a non-tag, as in `[event, boss]`, makes the tag list fail. |
| ParserLemmas.IndentIgnored | src/parser.rs:79-98 | Whitespace, line feeds included, in front of a line does not change how it parses. |
| ParserLemmas.PlainLine | src/parser.rs:77-101 | Text that starts with neither `[`, `-` nor whitespace and has no CR or LF, followed by the end, "\n" or "\r\n", is a stage with no tags whose action is that whole text, trailing whitespace included. |
| ParserLemmas.MarkerLine | src/parser.rs:98 | `---` parses as the marker and leaves exactly what follows it. |
| ParserLemmas.MarkerAt | src/parser.rs:98 | An indented `---` parses as the marker and leaves exactly what follows it. |
| ParserLemmas.BlankLinesSkipped | src/parser.rs:79 | Blank lines and indentation before a line are swallowed: the line still parses the same, whatever line follows it after a line feed. |
| ParserLemmas.PlainText | src/parser.rs:77-101 | Indentation followed by text that starts with neither `[`, `-` nor whitespace and has no CR or LF is one line of a quest. It parses to an untagged stage whose action is the text after the indentation. |
| ParserLemmas.MarkerText | src/parser.rs:98 | Indented `---` is one line of a quest, parsing to the marker. |
| ParserLemmas.SeparatedLines | src/parser.rs:104 | Lines each preceded by a line feed parse to exactly their lines, in order, and consume everything. |
| ParserLemmas.JoinedLines | src/parser.rs:103-116 | Texts joined by line feeds, each parsing to its line, give `Ok` of exactly those lines in order. |
| ParserLemmas.TaggedText | src/parser.rs:77-94 | Well-formed tags in brackets, whitespace that may cross line feeds, and a non-empty one-line action that does not start with whitespace form one line of a quest with those tags and that action. |
| ParserLemmas.TaggedStageAfter | src/parser.rs:77-94 | Well-formed tags in brackets, whitespace, and a non-empty one-line action that does not start with whitespace, followed by the end or a line feed, parse to that stage. |
| ParserLemmas.BracketLine | src/parser.rs:96-101 | A line starting with `[` is never the marker: it parses, or fails, exactly as a stage. |
| ParserLemmas.TaggedLineAfter | src/parser.rs:96-101 | Well-formed tags in brackets, whitespace, and a non-empty one-line action that does not start with whitespace, followed by the end or a line feed, parse to that stage line. |
| ParserLemmas.LeftOver | src/parser.rs:108-116 | When the first line stops at something other than a line feed, `parse` fails and reports that remainder. |
| ParserLemmas.SingleLine | src/parser.rs:103-116 | A one-line input consumed whole parses to a quest of that one line. |
| ParserLemmas.StoppedLines | src/parser.rs:104 | After any number of lines that each parse whole, the line list stops where the repetition stops after the final line, and leaves the same text. |
| ParserLemmas.StopsAfterLines | src/parser.rs:103-116 | When the last line of a quest stops before something other than a line feed, `parse` fails with that text as remainder, however many whole lines come before it. |
| ParserLemmas.CarriageReturnRejected | src/parser.rs:104-116 | A Windows line ending after a line that starts with neither `[`, `-` nor whitespace and has no CR or LF makes `parse` fail with "\r\n" and the rest as remainder, whatever whole lines come before that line. |
| ParserLemmas.TextAfterMarkerRejected | src/parser.rs:98-116 | Anything after a marker on its line, even a space, makes `parse` fail with that text as remainder, whatever whole lines come before the marker. |
| ParserExamples.ParseOneExample | src/parser.rs:130-146 | `[event] Foo bar` is the stage `Foo bar` tagged `[Event]`, with nothing left. |
| ParserExamples.ParseQuestOneExample | src/parser.rs:172-177 | `parse_quest` on `[event] Foo bar` gives one line and leaves nothing. |
| ParserExamples.UnknownOptionExample | src/parser.rs:216-232 | `[unknown,boss] Foo bar` has tags `[Other("unknown"), Boss]`, in that order, and action `Foo bar`. |
| ParserExamples.EmptyListExample | src/parser.rs:71-75 | `[]` is an empty tag list. |
| ParserExamples.NoOptionExample | src/parser.rs:148-159 | `Foo bar` is an untagged stage `Foo bar`, with nothing left. |
| ParserExamples.NowExample | src/parser.rs:161-170 | `---`, also indented, is the marker, with nothing left. |
| ParserExamples.TrailingWhitespaceExample | src/parser.rs:81 | Trailing spaces stay in the action. |
| ParserExamples.SampleLine | src/parser.rs:124-128 | Each of the sample's five lines parses to the corresponding line of the expected quest, whatever line follows it after a line feed. |
| ParserExamples.SampleParse | src/parser.rs:179-214 | The sample parses to exactly five lines. Line 0 is the untagged stage `first`, line 2 is the marker, and line 4 is `third` tagged `[Event, Boss]`. |
| ParserExamples.EmptyLineExample | src/parser.rs:77-101 | An empty line is a stage with no tags and an empty action. |
| ParserExamples.EmptyInputExample | src/parser.rs:103-116 | Empty input parses to one empty untagged stage. |
| ParserExamples.BlankCarriageReturnExample | src/parser.rs:96-116 | `a`, a line feed, then a blank line ended by CRLF, then `b` is `Ok` of exactly the two stages `a` and `b`: the CRLF is skipped as leading whitespace of the next line. |
| ParserExamples.TagsOnTheirOwnLineExample | src/parser.rs:79-81 | A tag list alone on its line takes the next line as its action, since `multispace0` crosses the line feed. |
| Render.Encode | src/quest.rs:5-14 | `encode` returns no glyph exactly for `Other`, and a non-empty glyph for every known tag. |
| Render.ImageTag | src/quest.rs:16-24 | Known tags become their glyph in a `quest-image` span, and `Other` its name in a `quest-other` em. The `panic!` branch cannot be reached. |
| Render.Symbols | src/quest.rs:27-31 | `.iter().map(image_tag).collect()`: one symbol per tag, in order. Its order is stated by RenderLemmas.SymbolsAppend and its rendering by RenderLemmas.TwoSymbols. |
| Render.HtmlOptions | src/quest.rs:26-38 | Empty exactly when there are no tags. Otherwise the symbols joined by `&nbsp;` inside a `quest-options` div. |
| Render.AnyImportant | src/quest.rs:42-46 | True exactly when some tag is `Boss` or `Miniboss`. |
| Render.ActionClass | src/quest.rs:42-51 | `quest-action quest-important` exactly when some tag is `Boss` or `Miniboss`, otherwise `quest-action`. |
| Render.StageClass | src/quest.rs:41 | `stage future` exactly when the flag is set, `stage` exactly when it is not. |
| Render.StageOpening | src/quest.rs:52-54 | A stage div opens with the future opening when the flag is set, and the plain one otherwise. |
| Render.OpeningsExclusive | src/quest.rs:52-69 | No block can open both as a plain stage and as a future stage or the marker, nor as a future stage and the marker. |
| Render.HtmlStage | src/quest.rs:40-63 | `html_stage`: the opening chosen by the flag, then the tags' symbols and the action span with its class. Its opening is stated by Render.StageBlockOpening, its classes by Render.StageClass and Render.ActionClass. |
| Render.HereStage | src/quest.rs:65-71 | `here_stage`: the fixed "YOU ARE HERE" block. That it is the marker's block and no stage's is stated by Render.HereOpening. |
| Render.LineBlock | src/quest.rs:79-82 | The loop body's `match`: the marker gives the fixed block, and a stage gives its stage block with the current flag. Stated by Render.BlockOpening. |
| Render.StageBlockOpening | src/quest.rs:40-63 | A stage block opens as a future stage exactly when the flag is set, as a plain stage exactly when it is not, and never as the marker. |
| Render.HereOpening | src/quest.rs:65-71 | The marker block opens as the marker and as no kind of stage. |
| Render.BlockOpening | src/quest.rs:79-82 | A line's block opens as the marker exactly when the line is the marker. A stage's block is classed by the flag. |
| Render.RenderFrom | src/quest.rs:77-84 | The loop pushes exactly one block per line. |
| Render.Blocks | src/quest.rs:77-84 | The blocks `generate` joins: one per line, starting with the flag lowered. What each block is is stated by RenderLemmas.BlockAt, RenderLemmas.HereIffNow and RenderLemmas.FutureIffAfterMarker. |
| Render.RenderNext | src/quest.rs:77-84 | One turn of the loop moves the block of the current line, rendered with the updated flag, from the blocks still to come onto the output. |
| Render.RenderLines | src/quest.rs:75-84 | The loop's output is exactly `Blocks(lines)`: one block per line, in order, each rendered with the flag as it stands after that line. |
| Render.Generate | src/quest.rs:73-89 | Err exactly when `parse` fails, with its message. Otherwise Ok of the blocks of the parsed lines joined by "\n". |
| RenderLemmas.ImageTagInjective | src/quest.rs:16-24 | Different tags never render to the same symbol. |
| RenderLemmas.TwoSymbols | src/quest.rs:27-36 | Two tags render as the first symbol, `&nbsp;`, then the second, inside the div. |
| Strings.SeparatedAppend | src/quest.rs:32 | Appending a part to the joined text appends the separator and the part. |
| Strings.JoinAppend | src/quest.rs:32 | Joining a list extended by one part appends the separator and that part. |
| RenderLemmas.SymbolsAppend | src/quest.rs:27-31 | Appending a tag appends its symbol: symbols keep the order of the tags. |
| RenderLemmas.OptionsAppend | src/quest.rs:26-38 | A tag added at the end of a non-empty list appears last in the div, after `&nbsp;`. |
| RenderLemmas.RenderFromAt | src/quest.rs:76-84 | Element `i` of the loop's output is line `i` rendered with the flag raised exactly when a marker occurs at or before it. |
| RenderLemmas.BlockAt | src/quest.rs:76-84 | Block `i` of a quest is line `i`'s block, rendered as future exactly when a marker occurs at or before line `i`. |
| RenderLemmas.HereIffNow | src/quest.rs:79-81 | A block is the marker block exactly when its line is a marker, and then it is the constant `here_stage` block. |
| RenderLemmas.FutureIffAfterMarker | src/quest.rs:76-81 | A stage renders as `stage future` exactly when a marker precedes it, and as `stage` exactly when none does. |
| RenderLemmas.MarkerBefore | src/quest.rs:78 | For a stage, a marker occurs at or before it exactly when one occurs strictly before it. |
| RenderLemmas.FutureStaysFuture | src/quest.rs:78 | The flag never drops: once a stage renders as future, every later stage does. |
| RenderLemmas.ImportantStage | src/quest.rs:42-51 | A stage carrying `Boss` or `Miniboss` is important, whatever else it carries. |
| RenderExamples.GenerateSample | src/quest.rs:103-107 | The sample quest renders successfully. |
| RenderExamples.SampleClasses | src/quest.rs:109-113 | In the sample, blocks 0 and 1 are `stage`, block 2 is the marker block, and blocks 3 and 4 are `stage future`: two of each. |
| RenderExamples.SampleLastBlock | src/quest.rs:109-114 | The sample's last block is the future stage `third` with `[Event, Boss]`. |
| RenderExamples.SampleLastSymbols | src/quest.rs:114 | `[event,boss]` renders as the Event span, `&nbsp;`, then the Boss span. |
| RenderExamples.SampleLastImportant | src/quest.rs:42-51 | The sample's `[event,boss]` stage is important. |
| RenderExamples.FifthParse | src/quest.rs:119 | `[event,unknown] fifth` parses to one stage with tags `[Event, Other("unknown")]`. |
| RenderExamples.FifthRender | src/quest.rs:117-120 | `[event,unknown] fifth` renders as one `stage` block. |
| RenderExamples.FifthSymbols | src/quest.rs:121 | `[event,unknown]` renders as the Event span, `&nbsp;`, then `unknown` in a `quest-other` em. |

## Left out

- `src/main.rs` is not part of this model: command-line parsing, file reading, Handlebars templating and printing are I/O and library glue.
- Logging (`info!`, `debug!`, including the byte-length log) has no effect on results and is not modelled.
- The `Fail` and `Research` arms of `encode` (`src/quest.rs:10-11`) are not modelled, because the tag enum in `src/parser.rs` has no such variants and the parser can never produce them.
- nom's error types, `Failure` and `Incomplete`: only recoverable failure (`Error`) and success are modelled, since the grammar uses only `complete` parsers that fail recoverably.
- `separated_list0`'s guard against a separator that consumes nothing is not modelled as a branch. Both separators used (`,` and a line feed) always consume one character, so the guard never fires.
- `ws` (`src/parser.rs:20-25`) is dead code and is not modelled.
- HTML escaping: the source inserts actions and unknown tag names verbatim, and so does the model.
- Render.RenderLines: the loop of `generate` is split into its own method, and `Generate` calls it after parsing.
- RenderExamples.SampleClasses: the tests count occurrences of `<div class="stage">` in the joined output. The model states instead which opening each block has; it does not count substrings of the joined string.
- RenderExamples.GenerateSample: states the rendered text as the join of `Blocks` of the sample quest rather than writing the whole HTML string out.
- Parser.ParseStage: states the shape of the action and what is left over. The action's exact value is stated by ParserLemmas.StageWithoutList, ParserLemmas.TaggedStageAfter and ParserLemmas.PlainLine.
- ParserLemmas.QuestRoundTrip: holds for well-formed quests only: actions that are non-empty, start with no whitespace and stay on one line, and `Other` names that are alphanumeric and do not begin with a keyword. Some other quests do not read back the same, for example a stage whose action starts with whitespace, or an empty action followed by another line.
- Strings are sequences of characters. Rust's UTF-8 byte strings and byte lengths are not modelled; every character the grammar inspects is ASCII.

=== FILE: nom.dfy ===
/** The concrete behaviour of the few `nom` parsers (complete, `&str` input) that
    the quest grammar is built from. Every parser takes the remaining input and
    either fails recoverably (`Error`, nom's `Err::Error`) or returns what it
    produced together with the input it left unconsumed. */
module Nom {
  import opened Strings

  datatype Parsed<+T> = Error | Done(value: T, rest: string)

  /** ASCII letters and digits, as `alphanumeric1` accepts them. */
  predicate IsAlphanumeric(c: char) {
    'a' <= c <= 'z' || 'A' <= c <= 'Z' || '0' <= c <= '9'
  }

  /** The characters `multispace0` skips: newlines included. */
  predicate IsMultispace(c: char) {
    c == ' ' || c == '\t' || c == '\r' || c == '\n'
  }

  /** Characters `not_line_ending` takes: anything but carriage return and line feed. */
  predicate IsLineContent(c: char) {
    c != '\r' && c != '\n'
  }

  /** Length of the longest prefix of `s` whose characters all satisfy `p`. */
  function SpanLength(s: string, p: char -> bool): (n: nat)
    ensures n <= |s|
    ensures forall i :: 0 <= i < n ==> p(s[i])
    ensures n < |s| ==> !p(s[n])
  {
    if s == [] || !p(s[0]) then 0 else 1 + SpanLength(s[1..], p)
  }

  /** `tag(t)`: matches the literal `t` at the start of the input. */
  function Tag(t: string, s: string): (r: Parsed<string>)
    ensures r.Done? <==> StartsWith(s, t)
    ensures r.Done? ==> r.value == t && s == t + r.rest
  {
    if StartsWith(s, t) then Done(t, s[|t|..]) else Error
  }

  /** `newline`: a single line feed; a carriage return is not accepted. */
  function Newline(s: string): (r: Parsed<char>)
    ensures r.Done? <==> s != [] && s[0] == '\n'
    ensures r.Done? ==> s == [r.value] + r.rest
  {
    if s != [] && s[0] == '\n' then Done('\n', s[1..]) else Error
  }

  /** `alphanumeric1`: the longest non-empty run of ASCII letters and digits. */
  function Alphanumeric1(s: string): (r: Parsed<string>)
    ensures r.Done? <==> s != [] && IsAlphanumeric(s[0])
    ensures r.Done? ==> s == r.value + r.rest && r.value != []
    ensures r.Done? ==> forall i :: 0 <= i < |r.value| ==> IsAlphanumeric(r.value[i])
    ensures r.Done? ==> r.rest == [] || !IsAlphanumeric(r.rest[0])
  {
    var n := SpanLength(s, IsAlphanumeric);
    if n == 0 then Error else Done(s[..n], s[n..])
  }

  /** `multispace0`: skips spaces, tabs, carriage returns and line feeds; never fails. */
  function Multispace0(s: string): (r: Parsed<string>)
    ensures r.Done?
    ensures s == r.value + r.rest
    ensures forall i :: 0 <= i < |r.value| ==> IsMultispace(r.value[i])
    ensures r.rest == [] || !IsMultispace(r.rest[0])
  {
    var n := SpanLength(s, IsMultispace);
    Done(s[..n], s[n..])
  }

  /** Position `i` holds the first line-ending character of `s`, and it is a
      carriage return that does not begin "\r\n". */
  predicate LoneCarriageReturnAt(s: string, i: int) {
    0 <= i < |s| && s[i] == '\r' && (i + 1 == |s| || s[i + 1] != '\n') &&
    forall j :: 0 <= j < i ==> IsLineContent(s[j])
  }

  /** `not_line_ending`: everything up to the next "\n" or "\r\n" (or the end);
      fails when the first line-ending character is a lone carriage return. */
  function NotLineEnding(s: string): (r: Parsed<string>)
    ensures r.Done? ==> s == r.value + r.rest
    ensures r.Done? ==> forall i :: 0 <= i < |r.value| ==> IsLineContent(r.value[i])
    ensures r.Done? ==> r.rest == [] || StartsWith(r.rest, "\n") || StartsWith(r.rest, "\r\n")
  {
    var n := SpanLength(s, IsLineContent);
    if n == |s| || s[n] == '\n' || (n + 1 < |s| && s[n + 1] == '\n') then
      LineEndingAt(s, n);
      Done(s[..n], s[n..])
    else
      Error
  }

  /** The first character `not_line_ending` does not take begins "\n" or
      "\r\n" when it is followed by a line feed or is one. */
  lemma LineEndingAt(s: string, n: nat)
    requires n < |s| ==> !IsLineContent(s[n])
    requires n <= |s|
    requires n == |s| || s[n] == '\n' || (n + 1 < |s| && s[n + 1] == '\n')
    ensures s[n..] == [] || StartsWith(s[n..], "\n") || StartsWith(s[n..], "\r\n")
  {
    if n < |s| && s[n] != '\n' {
      assert s[n..][..2] == "\r\n";
    } else if n < |s| {
      assert s[n..][..1] == "\n";
    }
  }

  /** `not_line_ending` fails exactly on a lone carriage return before any
      line feed. */
  lemma NotLineEndingFails(s: string)
    ensures NotLineEnding(s).Error? <==> exists i :: LoneCarriageReturnAt(s, i)
  {
    var n := SpanLength(s, IsLineContent);
    if NotLineEnding(s).Error? {
      assert LoneCarriageReturnAt(s, n);
    }
    if exists i :: LoneCarriageReturnAt(s, i) {
      var i :| LoneCarriageReturnAt(s, i);
      assert i == n;
    }
  }
}

=== FILE: parser.dfy ===
/** The quest grammar: text in, `Quest` out. Each rule is one `nom` combinator
    expression; `alt` is written as "first rule that does not fail", `opt` as
    "on failure, nothing and no input consumed", and each `separated_list0` as a
    pair of functions, the second of which backtracks to before a separator
    whose following element fails. */
module Parser {
  import opened Strings
  import opened Nom
  import opened Wrappers

  /** A tag attached to a stage (`Option` in the source). */
  datatype QuestOption = Event | Miniboss | Boss | Other(name: string)

  datatype Options = Options(options: seq<QuestOption>)

  datatype Stage = Stage(action: string, options: Options)

  /** One parsed line: a stage, or the `---` "you are here" marker. */
  datatype Line = StageLine(stage: Stage) | Now

  datatype Quest = Quest(lines: seq<Line>)

  /** The text a tag is written as inside the brackets. */
  function Spelling(o: QuestOption): string {
    match o
    case Event => "event"
    case Miniboss => "miniboss"
    case Boss => "boss"
    case Other(name) => name
  }

  /** The text of a comma-separated tag list (without its brackets). */
  function Listed(os: seq<QuestOption>): string {
    if os == [] then "" else Spelling(os[0]) + ListedTail(os[1..])
  }

  /** The text of the tags after the first one, each preceded by its comma. */
  function ListedTail(os: seq<QuestOption>): string {
    if os == [] then "" else "," + Spelling(os[0]) + ListedTail(os[1..])
  }

  lemma ListedCons(o: QuestOption, os: seq<QuestOption>, rest: string)
    ensures Listed([o] + os) + rest == Spelling(o) + (ListedTail(os) + rest)
  {
    assert ([o] + os)[1..] == os;
  }

  lemma ListedTailCons(o: QuestOption, os: seq<QuestOption>, rest: string)
    ensures ListedTail([o] + os) + rest == "," + (Spelling(o) + (ListedTail(os) + rest))
  {
    assert ([o] + os)[1..] == os;
  }

  predicate StartsWithKeyword(s: string) {
    StartsWith(s, "event") || StartsWith(s, "boss") || StartsWith(s, "miniboss")
  }

  /** `parse_other_option`: an arbitrary tag is a non-empty alphanumeric run,
      kept verbatim. */
  function ParseOtherOption(s: string): (r: Parsed<QuestOption>)
    ensures r.Done? <==> s != [] && IsAlphanumeric(s[0])
    ensures r.Done? ==> r.value.Other? && r.value.name != [] && s == r.value.name + r.rest
    ensures r.Done? ==> forall i :: 0 <= i < |r.value.name| ==> IsAlphanumeric(r.value.name[i])
    ensures r.Done? ==> r.rest == [] || !IsAlphanumeric(r.rest[0])
  {
    match Alphanumeric1(s)
    case Error => Error
    case Done(name, rest) => Done(Other(name), rest)
  }

  /** `parse_option`: the keywords `event`, `boss`, `miniboss` are tried in that
      order before the generic alphanumeric tag. */
  function ParseOption(s: string): (r: Parsed<QuestOption>)
    ensures r.Error? <==> s == [] || !IsAlphanumeric(s[0])
    ensures r.Done? ==> s == Spelling(r.value) + r.rest && |r.rest| < |s|
  {
    match Tag("event", s)
    case Done(_, rest) => Done(Event, rest)
    case Error =>
      match Tag("boss", s)
      case Done(_, rest) => Done(Boss, rest)
      case Error =>
        match Tag("miniboss", s)
        case Done(_, rest) => Done(Miniboss, rest)
        case Error => ParseOtherOption(s)
  }

  /** `separated_list0(tag(","), parse_option)`: never fails; an input that does
      not start with a tag gives the empty list. */
  function OptionList(s: string): (r: (seq<QuestOption>, string))
    ensures s == Listed(r.0) + r.1
  {
    match ParseOption(s)
    case Error => ([], s)
    case Done(o, s1) =>
      var (os, s2) := OptionListTail(s1);
      ListedCons(o, os, s2);
      ([o] + os, s2)
  }

  /** The repetition part of `separated_list0`: a comma followed by a tag, as
      often as possible; a comma whose tag fails is left unconsumed. */
  function OptionListTail(s: string): (r: (seq<QuestOption>, string))
    ensures s == ListedTail(r.0) + r.1
    decreases |s|
  {
    match Tag(",", s)
    case Error => ([], s)
    case Done(_, s1) =>
      match ParseOption(s1)
      case Error => ([], s)
      case Done(o, s2) =>
        var (os, s3) := OptionListTail(s2);
        ListedTailCons(o, os, s3);
        ([o] + os, s3)
  }

  /** `parse_options`: `[`, the tag list, `]`. */
  function ParseOptions(s: string): (r: Parsed<Options>)
    ensures r.Done? ==> s == "[" + Listed(r.value.options) + "]" + r.rest
  {
    match Tag("[", s)
    case Error => Error
    case Done(_, s1) =>
      var (os, s2) := OptionList(s1);
      match Tag("]", s2)
      case Error => Error
      case Done(_, s3) =>
        assert "[" + (Listed(os) + ("]" + s3)) == "[" + Listed(os) + "]" + s3;
        Done(Options(os), s3)
  }

  /** `parse_stage`: skip whitespace (newlines included), an optional tag list,
      whitespace again, then the rest of the line is the action. */
  function ParseStage(s: string): (r: Parsed<Stage>)
    ensures r.Done? ==> forall i :: 0 <= i < |r.value.action| ==> IsLineContent(r.value.action[i])
    ensures r.Done? ==> r.value.action == [] || !IsMultispace(r.value.action[0])
    ensures r.Done? ==> r.rest == [] || StartsWith(r.rest, "\n") || StartsWith(r.rest, "\r\n")
    ensures r.Done? ==> |r.rest| <= |s|
  {
    var s1 := Multispace0(s).rest;
    var (options, s2) :=
      match ParseOptions(s1)
      case Done(o, t) => (o, t)
      case Error => (Options([]), s1);
    var s3 := Multispace0(s2).rest;
    match NotLineEnding(s3)
    case Error => Error
    case Done(action, s4) => Done(Stage(action, options), s4)
  }

  /** `parse_line`: the marker alternative (whitespace, then `---`) is tried
      before the stage alternative. */
  function ParseLine(s: string): (r: Parsed<Line>)
    ensures (r.Done? && r.value.Now?) <==> StartsWith(Multispace0(s).rest, "---")
    ensures r.Done? && r.value.Now? ==> r.rest == Multispace0(s).rest[3..]
    ensures r.Done? ==> |r.rest| <= |s|
  {
    match Tag("---", Multispace0(s).rest)
    case Done(_, rest) => Done(Now, rest)
    case Error =>
      match ParseStage(s)
      case Error => Error
      case Done(stage, rest) => Done(StageLine(stage), rest)
  }

  /** `parse_quest`: `separated_list0(newline, parse_line)`; it never fails,
      so the `unwrap` in `parse` cannot panic. */
  function ParseQuest(s: string): (r: Parsed<Quest>)
    ensures r.Done? && |r.rest| <= |s|
    ensures r.value.lines == [] ==> r.rest == s
  {
    match ParseLine(s)
    case Error => Done(Quest([]), s)
    case Done(l, s1) =>
      var (ls, s2) := LineListTail(s1);
      Done(Quest([l] + ls), s2)
  }

  /** The repetition part of `separated_list0(newline, parse_line)`. */
  function LineListTail(s: string): (r: (seq<Line>, string))
    ensures |r.1| <= |s|
    ensures r.0 == [] ==> r.1 == s
    decreases |s|
  {
    match Newline(s)
    case Error => ([], s)
    case Done(_, s1) =>
      match ParseLine(s1)
      case Error => ([], s)
      case Done(l, s2) =>
        var (ls, s3) := LineListTail(s2);
        ([l] + ls, s3)
  }

  /** `parse`: succeeds only when the whole input is consumed. */
  function Parse(s: string): (r: Result<Quest>)
    ensures r.Ok? <==> ParseQuest(s).rest == []
    ensures r.Ok? ==> r.value == ParseQuest(s).value && |r.value.lines| >= 1
    ensures r.Err? ==> r.error == "Parse failed with remaining " + ParseQuest(s).rest
  {
    var parsed := ParseQuest(s);
    if parsed.rest != [] then
      Err("Parse failed with remaining " + parsed.rest)
    else
      assert ParseLine(s).Done?;
      Ok(parsed.value)
  }
}

=== FILE: parser_examples.dfy ===
/** The inputs of the source's unit tests, and a few edge cases of the
    grammar, worked through. */
module ParserExamples {
  import opened Nom
  import opened Wrappers
  import opened Parser
  import opened ParserLemmas
  import opened Strings

  /** `[event] Foo bar`: one tag, and the action without the space before it. */
  lemma ParseOneExample()
    ensures ParseLine("[event] Foo bar") == Done(StageLine(Stage("Foo bar", Options([Event]))), "")
  {
    var l := StageLine(Stage("Foo bar", Options([Event])));
    assert PrintLine(l) + "" == "[event] Foo bar";
    LineRoundTrip(l, "");
  }

  /** `parse_quest` on `[event] Foo bar`: one line and nothing left over. */
  lemma ParseQuestOneExample()
    ensures ParseQuest("[event] Foo bar") == Done(Quest([StageLine(Stage("Foo bar", Options([Event])))]), "")
  {
    ParseOneExample();
    SingleLine("[event] Foo bar", StageLine(Stage("Foo bar", Options([Event]))));
  }

  /** `[unknown,boss] Foo bar`: tags in order, the unknown one kept verbatim. */
  lemma UnknownOptionExample()
    ensures ParseLine("[unknown,boss] Foo bar") ==
            Done(StageLine(Stage("Foo bar", Options([Other("unknown"), Boss]))), "")
  {
    var l := StageLine(Stage("Foo bar", Options([Other("unknown"), Boss])));
    assert Listed([Other("unknown"), Boss]) == "unknown,boss";
    assert PrintLine(l) + "" == "[unknown,boss] Foo bar";
    assert "unknown"[0] == 'u';
    assert WellFormedOption(Other("unknown"));
    assert WellFormedOptions([Other("unknown"), Boss]);
    LineRoundTrip(l, "");
  }

  /** `[]` is an empty tag list. */
  lemma EmptyListExample(rest: string)
    ensures ParseOptions("[]" + rest) == Done(Options([]), rest)
  {
    OptionsRoundTrip([], rest);
    assert "[" + Listed([]) + "]" + rest == "[]" + rest;
  }

  /** A line without tags is all action. */
  lemma NoOptionExample()
    ensures ParseLine("Foo bar") == Done(StageLine(Stage("Foo bar", Options([]))), "")
  {
    PlainLine("Foo bar", "");
    assert "Foo bar" + "" == "Foo bar";
  }

  lemma NowExample()
    ensures ParseLine("---") == Done(Now, "")
    ensures ParseLine(" \t---") == Done(Now, "")
  {
    Multispace0Of([], "---");
    assert [] + "---" == "---";
    Multispace0Of(" \t", "---");
    assert " \t" + "---" == " \t---";
  }

  /** Trailing whitespace is part of the action. */
  lemma TrailingWhitespaceExample()
    ensures ParseLine("a  ") == Done(StageLine(Stage("a  ", Options([]))), "")
  {
    PlainLine("a  ", "");
    assert "a  " + "" == "a  ";
  }

  /** The lines of the sample quest in the source's tests: a marker indented
      by one space and a stage indented by two. */
  const SAMPLE_LINES: seq<string> :=
    ["first", "[event] second", " ---", "  third", "[event,boss] third"]

  const SAMPLE1: string := Join(SAMPLE_LINES, "\n")

  /** The five lines the sample quest parses to. */
  function SampleQuest(): Quest {
    Quest([StageLine(Stage("first", Options([]))),
           StageLine(Stage("second", Options([Event]))),
           Now,
           StageLine(Stage("third", Options([]))),
           StageLine(Stage("third", Options([Event, Boss])))])
  }

  lemma SampleFirstLine()
    ensures LineText(SAMPLE_LINES[0], SampleQuest().lines[0])
  {
    assert SAMPLE_LINES[0] == "first";
    PlainText("", "first", "first");
  }

  lemma SampleFourthLine()
    ensures LineText(SAMPLE_LINES[3], SampleQuest().lines[3])
  {
    assert SAMPLE_LINES[3] == "  third";
    PlainText("  ", "third", "  third");
  }

  lemma SecondPrinted()
    ensures PrintLine(SampleQuest().lines[1]) == SAMPLE_LINES[1]
  {
  }

  lemma SampleSecondLine()
    ensures LineText(SAMPLE_LINES[1], SampleQuest().lines[1])
  {
    SecondPrinted();
    PrintedLineText(SampleQuest().lines[1]);
  }

  lemma LastPrinted()
    ensures PrintLine(SampleQuest().lines[4]) == SAMPLE_LINES[4]
  {
    assert ListedTail([Boss]) == ",boss";
  }

  lemma SampleLastLine()
    ensures LineText(SAMPLE_LINES[4], SampleQuest().lines[4])
  {
    LastPrinted();
    PrintedLineText(SampleQuest().lines[4]);
  }

  lemma SampleMarkerLine()
    ensures LineText(SAMPLE_LINES[2], SampleQuest().lines[2])
  {
    assert SAMPLE_LINES[2] == " ---";
    MarkerText(" ", " ---");
  }

  /** Line `i` of the sample text parses to line `i` of the sample quest. */
  lemma SampleLine(i: nat)
    requires i < 5
    ensures LineText(SAMPLE_LINES[i], SampleQuest().lines[i])
  {
    if i == 0 {
      SampleFirstLine();
    } else if i == 1 {
      SampleSecondLine();
    } else if i == 2 {
      SampleMarkerLine();
    } else if i == 3 {
      SampleFourthLine();
    } else {
      SampleLastLine();
    }
  }

  /** The source's sample quest parses to exactly five lines: `first` without
      tags, `second` with `event`, the marker, `third` without tags and `third`
      with `event` and `boss`. */
  lemma SampleParse()
    ensures Parse(SAMPLE1) == Ok(SampleQuest())
  {
    forall i | 0 <= i < 5
      ensures LineText(SAMPLE_LINES[i], SampleQuest().lines[i])
    {
      SampleLine(i);
    }
    JoinedLines(SAMPLE_LINES, SampleQuest().lines);
  }

  /** `a`, then a blank line ended by a CRLF, then `b`. */
  const CRLF_BLANK_LINES: seq<string> := ["a", "\r\nb"]

  lemma CrlfBlankText()
    ensures Join(CRLF_BLANK_LINES, "\n") == "a\n\r\nb"
  {
    assert CRLF_BLANK_LINES[1..] == ["\r\nb"];
  }

  lemma CrlfBlankLine(i: nat)
    requires i < 2
    ensures LineText(CRLF_BLANK_LINES[i], StageLine(Stage(["a", "b"][i], Options([]))))
  {
    if i == 0 {
      PlainText([], "a", "a");
    } else {
      PlainText("\r\n", "b", "\r\nb");
    }
  }

  /** A CRLF that ends a blank line is whitespace in front of the next line,
      so `a\n\r\nb` reads as two stages and the blank line vanishes. */
  lemma BlankCarriageReturnExample()
    ensures Parse("a\n\r\nb") == Ok(Quest([StageLine(Stage("a", Options([]))), StageLine(Stage("b", Options([])))]))
  {
    var ls := [StageLine(Stage("a", Options([]))), StageLine(Stage("b", Options([])))];
    forall i | 0 <= i < 2
      ensures LineText(CRLF_BLANK_LINES[i], ls[i])
    {
      CrlfBlankLine(i);
    }
    JoinedLines(CRLF_BLANK_LINES, ls);
    CrlfBlankText();
  }

  /** An empty line is a stage with no tags and an empty action. */
  lemma EmptyLineExample()
    ensures ParseLine("") == Done(StageLine(Stage("", Options([]))), "")
  {
    var e: string := [];
    Multispace0Of(e, e);
    assert e + e == e;
    WholeRestOfLine(e);
    assert Tag("[", e).Error? && Tag("---", e).Error?;
    StageWithoutList(e);
  }

  /** Empty input is one stage with no tags and an empty action. */
  lemma EmptyInputExample()
    ensures Parse("") == Ok(Quest([StageLine(Stage("", Options([])))]))
  {
    EmptyLineExample();
    SingleLine("", StageLine(Stage("", Options([]))));
  }

  lemma EventListText()
    ensures "[event]\nfoo" == "[" + Listed([Event]) + "]" + ("\n" + "foo")
  {
  }

  /** A tag list alone on its line takes the next line as its action, since
      the whitespace after the list crosses the line feed. */
  lemma TagsOnTheirOwnLineExample()
    ensures Parse("[event]\nfoo") == Ok(Quest([StageLine(Stage("foo", Options([Event])))]))
  {
    var l := StageLine(Stage("foo", Options([Event])));
    EventListText();
    TaggedText([Event], "\n", "foo", "[event]\nfoo");
    JoinedLines(["[event]\nfoo"], [l]);
  }
}

=== FILE: parser_lemmas.dfy ===
/** What the quest grammar guarantees: the primitive parsers split their input
    uniquely, a printed quest parses back to itself, and the concrete inputs the
    source's own unit tests use parse as those tests expect. */
module ParserLemmas {
  import opened Nom
  import opened Wrappers
  import opened Parser
  import opened Strings

  // ---------------------------------------------------------------------------
  // The primitive parsers, run on an input whose split is known in advance.

  lemma SpanOf(w: string, x: string, p: char -> bool)
    requires forall i :: 0 <= i < |w| ==> p(w[i])
    requires x == [] || !p(x[0])
    ensures SpanLength(w + x, p) == |w|
  {
    assert forall i :: 0 <= i < |w| ==> (w + x)[i] == w[i];
    assert x != [] ==> (w + x)[|w|] == x[0];
  }

  lemma Multispace0Of(w: string, x: string)
    requires forall i :: 0 <= i < |w| ==> IsMultispace(w[i])
    requires x == [] || !IsMultispace(x[0])
    ensures Multispace0(w + x) == Done(w, x)
  {
    SpanOf(w, x, IsMultispace);
    assert (w + x)[..|w|] == w && (w + x)[|w|..] == x;
  }

  lemma Alphanumeric1Of(w: string, x: string)
    requires w != [] && forall i :: 0 <= i < |w| ==> IsAlphanumeric(w[i])
    requires x == [] || !IsAlphanumeric(x[0])
    ensures Alphanumeric1(w + x) == Done(w, x)
  {
    SpanOf(w, x, IsAlphanumeric);
    assert (w + x)[..|w|] == w && (w + x)[|w|..] == x;
  }

  lemma NotLineEndingOf(w: string, x: string)
    requires forall i :: 0 <= i < |w| ==> IsLineContent(w[i])
    requires x == [] || x[0] == '\n' || (|x| >= 2 && x[0] == '\r' && x[1] == '\n')
    ensures NotLineEnding(w + x) == Done(w, x)
  {
    SpanOf(w, x, IsLineContent);
    assert (w + x)[..|w|] == w && (w + x)[|w|..] == x;
  }

  /** `not_line_ending` takes all of an input without line endings. */
  lemma WholeRestOfLine(s: string)
    requires forall i :: 0 <= i < |s| ==> IsLineContent(s[i])
    ensures NotLineEnding(s) == Done(s, [])
  {
    NotLineEndingOf(s, []);
    assert s + [] == s;
  }

  /** An alphanumeric word followed by a non-alphanumeric character starts with
      a keyword only when the word itself does. */
  lemma KeywordInWord(w: string, x: string, k: string)
    requires forall i :: 0 <= i < |w| ==> IsAlphanumeric(w[i])
    requires x == [] || !IsAlphanumeric(x[0])
    requires forall i :: 0 <= i < |k| ==> IsAlphanumeric(k[i])
    requires StartsWith(w + x, k)
    ensures StartsWith(w, k)
  {
    assert x != [] ==> (w + x)[|w|] == x[0];
    if |k| <= |w| {
      assert (w + x)[..|k|] == w[..|k|];
    }
  }

  // ---------------------------------------------------------------------------
  // Printing a quest, and reading it back.

  /** A tag the grammar can read back: an `Other` name is a non-empty
      alphanumeric word that does not begin with a keyword. */
  predicate WellFormedOption(o: QuestOption) {
    o.Other? ==>
      o.name != [] && !StartsWithKeyword(o.name) &&
      forall i :: 0 <= i < |o.name| ==> IsAlphanumeric(o.name[i])
  }

  predicate WellFormedOptions(os: seq<QuestOption>) {
    forall i :: 0 <= i < |os| ==> WellFormedOption(os[i])
  }

  /** A stage the grammar can read back: its action is a non-empty piece of
      one line that does not begin with whitespace. */
  predicate WellFormedStage(st: Stage) {
    st.action != [] && !IsMultispace(st.action[0]) &&
    (forall i :: 0 <= i < |st.action| ==> IsLineContent(st.action[i])) &&
    WellFormedOptions(st.options.options)
  }

  predicate WellFormedLine(l: Line) {
    l.StageLine? ==> WellFormedStage(l.stage)
  }

  predicate WellFormedQuest(q: Quest) {
    q.lines != [] && forall i :: 0 <= i < |q.lines| ==> WellFormedLine(q.lines[i])
  }

  /** A stage is printed with its (possibly empty) bracketed tag list, a space
      and its action; the marker as `---`. */
  function PrintLine(l: Line): string {
    match l
    case Now => "---"
    case StageLine(st) => "[" + Listed(st.options.options) + "] " + st.action
  }

  /** A quest is printed as its lines joined by line feeds. */
  function PrintQuest(q: Quest): string {
    Join(seq(|q.lines|, i requires 0 <= i < |q.lines| => PrintLine(q.lines[i])), "\n")
  }

  /** Keywords are matched before the generic tag, and a well-formed `Other`
      name is taken whole. */
  lemma OptionRoundTrip(o: QuestOption, t: string)
    requires WellFormedOption(o)
    requires o.Other? ==> t == [] || !IsAlphanumeric(t[0])
    ensures ParseOption(Spelling(o) + t) == Done(o, t)
  {
    if o.Other? {
      var s := o.name + t;
      if StartsWith(s, "event") { KeywordInWord(o.name, t, "event"); }
      if StartsWith(s, "boss") { KeywordInWord(o.name, t, "boss"); }
      if StartsWith(s, "miniboss") { KeywordInWord(o.name, t, "miniboss"); }
      Alphanumeric1Of(o.name, t);
    } else {
      assert (Spelling(o) + t)[..|Spelling(o)|] == Spelling(o);
    }
  }

  lemma WellFormedTail(os: seq<QuestOption>)
    requires os != [] && WellFormedOptions(os)
    ensures WellFormedOption(os[0]) && WellFormedOptions(os[1..])
  {
    forall i | 0 <= i < |os[1..]| ensures WellFormedOption(os[1..][i]) {
      assert os[1..][i] == os[i + 1];
    }
  }

  /** What follows a printed tag is a comma or the closing bracket. */
  lemma AfterSpelling(os: seq<QuestOption>, rest: string)
    requires StartsWith(rest, "]")
    ensures ListedTail(os) + rest != [] && !IsAlphanumeric((ListedTail(os) + rest)[0])
  {
    if os != [] {
      assert (ListedTail(os) + rest)[0] == ',';
    } else {
      assert ListedTail(os) + rest == rest;
    }
  }

  /** The first tag of a printed list, followed by the rest of the list and a
      closing bracket, parses back to itself. */
  lemma HeadRoundTrip(os: seq<QuestOption>, close: string)
    requires os != [] && WellFormedOptions(os)
    requires StartsWith(close, "]")
    ensures ParseOption(Spelling(os[0]) + (ListedTail(os[1..]) + close)) == Done(os[0], ListedTail(os[1..]) + close)
  {
    WellFormedTail(os);
    AfterSpelling(os[1..], close);
    OptionRoundTrip(os[0], ListedTail(os[1..]) + close);
  }

  lemma CommaRoundTrip(os: seq<QuestOption>, rest: string)
    requires os != []
    ensures Tag(",", ListedTail(os) + rest) == Done(",", Spelling(os[0]) + (ListedTail(os[1..]) + rest))
  {
    assert ListedTail(os) + rest == "," + (Spelling(os[0]) + (ListedTail(os[1..]) + rest));
  }

  /** One round of `separated_list0`'s repetition: a comma, then a tag. */
  lemma OptionListTailStep(os: seq<QuestOption>, rest: string)
    requires os != []
    requires Tag(",", ListedTail(os) + rest) == Done(",", Spelling(os[0]) + (ListedTail(os[1..]) + rest))
    requires ParseOption(Spelling(os[0]) + (ListedTail(os[1..]) + rest)) == Done(os[0], ListedTail(os[1..]) + rest)
    requires OptionListTail(ListedTail(os[1..]) + rest) == (os[1..], rest)
    ensures OptionListTail(ListedTail(os) + rest) == (os, rest)
  {
    assert [os[0]] + os[1..] == os;
  }

  lemma {:induction false} OptionListTailRoundTrip(os: seq<QuestOption>, rest: string)
    requires WellFormedOptions(os)
    requires StartsWith(rest, "]")
    ensures OptionListTail(ListedTail(os) + rest) == (os, rest)
  {
    if os == [] {
      assert ListedTail(os) + rest == rest;
      assert Tag(",", rest).Error?;
    } else {
      WellFormedTail(os);
      OptionListTailRoundTrip(os[1..], rest);
      CommaRoundTrip(os, rest);
      HeadRoundTrip(os, rest);
      OptionListTailStep(os, rest);
    }
  }

  /** The first tag of `separated_list0`, then its repetition. */
  lemma OptionListStep(os: seq<QuestOption>, close: string)
    requires os != []
    requires ParseOption(Listed(os) + close) == Done(os[0], ListedTail(os[1..]) + close)
    requires OptionListTail(ListedTail(os[1..]) + close) == (os[1..], close)
    ensures OptionList(Listed(os) + close) == (os, close)
  {
    assert [os[0]] + os[1..] == os;
  }

  lemma OptionListRoundTrip(os: seq<QuestOption>, close: string)
    requires WellFormedOptions(os)
    requires StartsWith(close, "]")
    ensures OptionList(Listed(os) + close) == (os, close)
  {
    if os == [] {
      assert Listed(os) + close == close;
      assert ParseOption(close).Error?;
    } else {
      assert [os[0]] + os[1..] == os;
      ListedCons(os[0], os[1..], close);
      WellFormedTail(os);
      HeadRoundTrip(os, close);
      OptionListTailRoundTrip(os[1..], close);
      OptionListStep(os, close);
    }
  }

  /** Printing a tag list and parsing it back gives the same tags, in the same
      order, and leaves whatever followed the closing bracket. */
  lemma OptionsRoundTrip(os: seq<QuestOption>, rest: string)
    requires WellFormedOptions(os)
    ensures ParseOptions("[" + Listed(os) + "]" + rest) == Done(Options(os), rest)
  {
    var close := "]" + rest;
    assert "[" + Listed(os) + "]" + rest == "[" + (Listed(os) + close);
    OptionListRoundTrip(os, close);
    assert Tag("]", close) == Done("]", rest);
  }

  lemma PrintedStage(st: Stage, t: string)
    ensures PrintLine(StageLine(st)) + t == "[" + Listed(st.options.options) + "]" + (" " + (st.action + t))
  {
  }

  lemma StageRoundTrip(st: Stage, t: string)
    requires WellFormedStage(st)
    requires t == [] || t[0] == '\n'
    ensures ParseStage(PrintLine(StageLine(st)) + t) == Done(st, t)
  {
    PrintedStage(st, t);
    TaggedStageAfter(st.options.options, " ", st.action, t, PrintLine(StageLine(st)) + t);
  }

  lemma LineRoundTrip(l: Line, t: string)
    requires WellFormedLine(l)
    requires t == [] || t[0] == '\n'
    ensures ParseLine(PrintLine(l) + t) == Done(l, t)
  {
    var s := PrintLine(l) + t;
    Multispace0Of([], s);
    assert [] + s == s;
    if l.Now? {
      assert s[..3] == "---";
    } else {
      assert s[0] == '[';
      StageRoundTrip(l.stage, t);
    }
  }

  /** One round of `separated_list0(newline, parse_line)`'s repetition. */
  lemma LineListTailStep(l: Line, ls: seq<Line>, s: string, s1: string, t: string, r: string)
    requires Newline(s) == Done('\n', s1)
    requires ParseLine(s1) == Done(l, t)
    requires LineListTail(t) == (ls, r)
    ensures LineListTail(s) == ([l] + ls, r)
  {
  }

  // ---------------------------------------------------------------------------
  // Tags.

  /** Keywords are tried before the generic tag, so a token spelled as a
      keyword always yields the known tag. */
  lemma KeywordsWin(t: string)
    ensures ParseOption("event" + t) == Done(Event, t)
    ensures ParseOption("boss" + t) == Done(Boss, t)
    ensures ParseOption("miniboss" + t) == Done(Miniboss, t)
  {
    assert ("event" + t)[..5] == "event";
    assert ("boss" + t)[..4] == "boss";
    assert ("miniboss" + t)[..8] == "miniboss";
    assert ("miniboss" + t)[0] == 'm';
  }

  /** `Other` comes only from input that does not begin with a keyword, and its
      name is exactly the longest alphanumeric run there. */
  lemma OtherOnlyFromWord(s: string)
    requires ParseOption(s).Done? && ParseOption(s).value.Other?
    ensures !StartsWithKeyword(s)
    ensures ParseOption(s) == ParseOtherOption(s)
    ensures s == ParseOption(s).value.name + ParseOption(s).rest
  {
  }

  // ---------------------------------------------------------------------------
  // Stages and lines.

  /** When no well-formed tag list follows the leading whitespace, the tags are
      empty and the action is the rest of the line after that whitespace. */
  lemma StageWithoutList(s: string)
    requires ParseOptions(Multispace0(s).rest).Error?
    requires NotLineEnding(Multispace0(s).rest).Done?
    ensures ParseStage(s) == Done(Stage(NotLineEnding(Multispace0(s).rest).value, Options([])),
                                  NotLineEnding(Multispace0(s).rest).rest)
  {
    var s1 := Multispace0(s).rest;
    Multispace0Of([], s1);
    assert [] + s1 == s1;
  }

  /** A line that does not start with whitespace or `---` and does not start
      with a well-formed tag list is a stage whose action is the whole line. */
  lemma WholeLineIsAction(s: string)
    requires s != [] && !IsMultispace(s[0]) && !StartsWith(s, "---")
    requires forall i :: 0 <= i < |s| ==> IsLineContent(s[i])
    requires ParseOptions(s).Error?
    ensures ParseLine(s) == Done(StageLine(Stage(s, Options([]))), "")
  {
    assert Multispace0(s).rest == s by {
      Multispace0Of([], s);
      assert [] + s == s;
    }
    assert NotLineEnding(s) == Done(s, []) by {
      WholeRestOfLine(s);
    }
    assert ParseStage(s) == Done(Stage(s, Options([])), "") by {
      StageWithoutList(s);
    }
    assert Tag("---", s).Error?;
  }

  /** An opening bracket that is never closed does not make the line fail: the
      whole line, bracket included, becomes the action. */
  lemma UnclosedBracket(s: string)
    requires s != [] && s[0] == '[' && ']' !in s
    requires forall i :: 0 <= i < |s| ==> IsLineContent(s[i])
    ensures ParseLine(s) == Done(StageLine(Stage(s, Options([]))), "")
  {
    WholeLineIsAction(s);
  }

  /** `separated_list0` stops before anything that is not a comma. */
  lemma OptionListTailStops(t: string)
    requires t == [] || t[0] != ','
    ensures OptionListTail(t) == ([], t)
  {
    assert Tag(",", t).Error?;
  }

  /** `separated_list0` with exactly one element. */
  lemma OptionListOfOne(s: string, o: QuestOption, t: string)
    requires ParseOption(s) == Done(o, t)
    requires OptionListTail(t) == ([], t)
    ensures OptionList(s) == ([o], t)
  {
    assert [o] + [] == [o];
  }

  /** `separated_list0` backtracks over a comma whose element fails. */
  lemma OptionListTailBacktrack(c: string)
    requires c != [] && c[0] == ','
    requires |c| == 1 || !IsAlphanumeric(c[1])
    ensures OptionListTail(c) == ([], c)
  {
    assert Tag(",", c) == Done(",", c[1..]);
  }

  /** A tag list whose elements stop before a character other than `]`. */
  lemma Unclosed(u: string, os: seq<QuestOption>, t: string)
    requires OptionList(u) == (os, t)
    requires t == [] || t[0] != ']'
    ensures ParseOptions("[" + u).Error?
  {
    assert Tag("[", "[" + u) == Done("[", u);
    assert Tag("]", t).Error?;
  }

  lemma KeywordOption(o: QuestOption, t: string)
    requires !o.Other?
    ensures ParseOption(Spelling(o) + t) == Done(o, t)
  {
    KeywordsWin(t);
  }

  /** A keyword directly followed by more letters or digits: the keyword is
      taken, no comma or `]` follows, so the tag list as a whole fails. */
  lemma KeywordPrefixTags(o: QuestOption, t: string)
    requires !o.Other? && t != [] && IsAlphanumeric(t[0])
    ensures ParseOptions("[" + (Spelling(o) + t)).Error?
  {
    KeywordOption(o, t);
    OptionListTailStops(t);
    OptionListOfOne(Spelling(o) + t, o, t);
    Unclosed(Spelling(o) + t, [o], t);
  }

  /** Two pieces of one line make one line. */
  lemma OneLine(a: string, b: string)
    requires forall i :: 0 <= i < |a| ==> IsLineContent(a[i])
    requires forall i :: 0 <= i < |b| ==> IsLineContent(b[i])
    ensures forall i :: 0 <= i < |a + b| ==> IsLineContent((a + b)[i])
  {
    forall i | 0 <= i < |a + b|
      ensures IsLineContent((a + b)[i])
    {
      if i >= |a| {
        assert (a + b)[i] == b[i - |a|];
      }
    }
  }

  /** A line that opens with a bracket is neither indented nor the end
      marker. */
  lemma BracketOpens(s: string)
    requires s != [] && s[0] == '['
    ensures !IsMultispace(s[0]) && !StartsWith(s, "---")
  {
    if |s| >= 3 {
      assert s[..3][0] == '[';
    }
  }

  /** A one-line input starting with a bracket whose tag list fails is all
      action. */
  lemma BracketWithoutList(s: string)
    requires s != [] && s[0] == '['
    requires forall i :: 0 <= i < |s| ==> IsLineContent(s[i])
    requires ParseOptions(s).Error?
    ensures ParseLine(s) == Done(StageLine(Stage(s, Options([]))), "")
  {
    BracketOpens(s);
    WholeLineIsAction(s);
  }

  /** `[events] x`: since the tag list fails, the whole line, bracket
      included, becomes the action of an untagged stage. */
  lemma KeywordPrefixLine(o: QuestOption, t: string)
    requires !o.Other? && t != [] && IsAlphanumeric(t[0])
    requires forall i :: 0 <= i < |t| ==> IsLineContent(t[i])
    ensures ParseLine("[" + (Spelling(o) + t)) == Done(StageLine(Stage("[" + (Spelling(o) + t), Options([]))), "")
  {
    var k := Spelling(o);
    assert forall i :: 0 <= i < |k| ==> IsLineContent(k[i]);
    OneLine(k, t);
    OneLine("[", k + t);
    KeywordPrefixTags(o, t);
    BracketWithoutList("[" + (k + t));
  }

  /** A comma not followed by a tag (`[event, boss] x`): the list backtracks to
      before the comma, the closing bracket is then missing, and the tag list as
      a whole fails. */
  lemma StrayCommaTags(o: QuestOption, t: string)
    requires !o.Other? && (t == [] || !IsAlphanumeric(t[0]))
    ensures ParseOptions("[" + (Spelling(o) + ("," + t))).Error?
  {
    KeywordOption(o, "," + t);
    OptionListTailBacktrack("," + t);
    OptionListOfOne(Spelling(o) + ("," + t), o, "," + t);
    Unclosed(Spelling(o) + ("," + t), [o], "," + t);
  }

  // ---------------------------------------------------------------------------
  // Whole lines and documents, built up one line at a time.

  /** Characters `multispace0` skips. */
  predicate Blank(w: string) {
    forall i :: 0 <= i < |w| ==> IsMultispace(w[i])
  }

  /** Text that reads as an untagged stage: it starts with neither a bracket,
      a dash nor whitespace, and stays on one line. */
  predicate Plain(a: string) {
    a != [] && a[0] != '[' && a[0] != '-' && !IsMultispace(a[0]) &&
    forall i :: 0 <= i < |a| ==> IsLineContent(a[i])
  }

  /** Whitespace in front of a line is skipped before anything else is read. */
  lemma IndentIgnored(w: string, x: string)
    requires Blank(w)
    ensures ParseLine(w + x) == ParseLine(x)
  {
    var m := Multispace0(x);
    assert (w + m.value) + m.rest == w + (m.value + m.rest);
    Multispace0Of(w + m.value, m.rest);
    assert Multispace0(w + x).rest == m.rest;
  }

  /** A line without tags and without `---`: the action is the text up to the
      line ending. */
  lemma PlainLine(a: string, t: string)
    requires Plain(a)
    requires t == [] || t[0] == '\n' || (|t| >= 2 && t[0] == '\r' && t[1] == '\n')
    ensures ParseLine(a + t) == Done(StageLine(Stage(a, Options([]))), t)
  {
    var s := a + t;
    assert s[0] == a[0];
    Multispace0Of([], s);
    assert [] + s == s;
    assert Tag("---", s).Error?;
    assert Tag("[", s).Error?;
    NotLineEndingOf(a, t);
  }

  lemma MarkerLine(t: string)
    ensures ParseLine("---" + t) == Done(Now, t)
  {
    Multispace0Of([], "---" + t);
    assert [] + ("---" + t) == "---" + t;
    assert ("---" + t)[..3] == "---";
  }

  /** The marker, indented, for an input given by name. */
  lemma MarkerAt(w: string, t: string, s: string)
    requires Blank(w) && s == w + ("---" + t)
    ensures ParseLine(s) == Done(Now, t)
  {
    IndentIgnored(w, "---" + t);
    MarkerLine(t);
  }

  lemma ParseQuestStep(s: string, l: Line, s1: string, ls: seq<Line>, r: string)
    requires ParseLine(s) == Done(l, s1)
    requires LineListTail(s1) == (ls, r)
    ensures ParseQuest(s) == Done(Quest([l] + ls), r)
  {
  }

  /** The line list stops at anything but a line feed. */
  lemma LineListTailStops(t: string)
    requires t == [] || t[0] != '\n'
    ensures LineListTail(t) == ([], t)
  {
  }

  // ---------------------------------------------------------------------------
  // Quest text written line by line.

  /** `text` is one line of a quest that parses to `l`, whatever lines follow
      it after a line feed. */
  ghost predicate LineText(text: string, l: Line) {
    forall t :: t == [] || t[0] == '\n' ==> ParseLine(text + t) == Done(l, t)
  }

  /** Whitespace in front of a line changes nothing, whatever follows it. */
  lemma IndentBefore(w: string, p: string, t: string)
    requires Blank(w)
    ensures ParseLine((w + p) + t) == ParseLine(p + t)
  {
    IndentIgnored(w, p + t);
    assert (w + p) + t == w + (p + t);
  }

  /** Blank lines and indentation before a line are swallowed by the
      whitespace the line starts with. */
  lemma BlankLinesSkipped(w: string, text: string, l: Line)
    requires Blank(w) && LineText(text, l)
    ensures LineText(w + text, l)
  {
    forall t | t == [] || t[0] == '\n'
      ensures ParseLine((w + text) + t) == Done(l, t)
    {
      IndentBefore(w, text, t);
    }
  }

  lemma PlainText(w: string, a: string, text: string)
    requires Blank(w) && Plain(a) && text == w + a
    ensures LineText(text, StageLine(Stage(a, Options([]))))
  {
    forall t | t == [] || t[0] == '\n'
      ensures ParseLine(a + t) == Done(StageLine(Stage(a, Options([]))), t)
    {
      PlainLine(a, t);
    }
    BlankLinesSkipped(w, a, StageLine(Stage(a, Options([]))));
  }

  lemma MarkerText(w: string, text: string)
    requires Blank(w) && text == w + "---"
    ensures LineText(text, Now)
  {
    forall t | t == [] || t[0] == '\n'
      ensures ParseLine("---" + t) == Done(Now, t)
    {
      MarkerLine(t);
    }
    BlankLinesSkipped(w, "---", Now);
  }

  /** A printed line is a line of quest text that parses back to itself. */
  lemma PrintedLineText(l: Line)
    requires WellFormedLine(l)
    ensures LineText(PrintLine(l), l)
  {
    forall t | t == [] || t[0] == '\n'
      ensures ParseLine(PrintLine(l) + t) == Done(l, t)
    {
      LineRoundTrip(l, t);
    }
  }

  lemma TailTexts(texts: seq<string>, ls: seq<Line>)
    requires |texts| == |ls| >= 1
    requires forall i :: 0 <= i < |ls| ==> LineText(texts[i], ls[i])
    ensures forall i :: 0 <= i < |ls| - 1 ==> LineText(texts[1..][i], ls[1..][i])
  {
    forall i | 0 <= i < |ls| - 1
      ensures LineText(texts[1..][i], ls[1..][i])
    {
      assert texts[1..][i] == texts[i + 1] && ls[1..][i] == ls[i + 1];
    }
  }

  lemma {:induction false} SeparatedLines(texts: seq<string>, ls: seq<Line>)
    requires |texts| == |ls|
    requires forall i :: 0 <= i < |ls| ==> LineText(texts[i], ls[i])
    ensures LineListTail(Separated(texts, "\n")) == (ls, "")
  {
    if ls == [] {
      assert Newline("").Error?;
    } else {
      var rest := Separated(texts[1..], "\n");
      TailTexts(texts, ls);
      SeparatedLines(texts[1..], ls[1..]);
      assert LineText(texts[0], ls[0]);
      assert ParseLine(texts[0] + rest) == Done(ls[0], rest);
      LineListTailStep(ls[0], ls[1..], Separated(texts, "\n"), texts[0] + rest, rest, "");
      assert [ls[0]] + ls[1..] == ls;
    }
  }

  /** A quest written as lines joined by line feeds parses to the lines each of
      them parses to, in order. */
  lemma JoinedLines(texts: seq<string>, ls: seq<Line>)
    requires |texts| == |ls| >= 1
    requires forall i :: 0 <= i < |ls| ==> LineText(texts[i], ls[i])
    ensures Parse(Join(texts, "\n")) == Ok(Quest(ls))
  {
    var rest := Separated(texts[1..], "\n");
    SeparatedLines(texts[1..], ls[1..]);
    assert LineText(texts[0], ls[0]);
    assert ParseLine(texts[0] + rest) == Done(ls[0], rest);
    ParseQuestStep(Join(texts, "\n"), ls[0], rest, ls[1..], "");
    assert [ls[0]] + ls[1..] == ls;
  }

  /** Printing a well-formed quest and parsing the text gives the quest back. */
  lemma QuestRoundTrip(q: Quest)
    requires WellFormedQuest(q)
    ensures Parse(PrintQuest(q)) == Ok(q)
  {
    var texts := seq(|q.lines|, i requires 0 <= i < |q.lines| => PrintLine(q.lines[i]));
    forall i | 0 <= i < |q.lines|
      ensures LineText(texts[i], q.lines[i])
    {
      PrintedLineText(q.lines[i]);
    }
    JoinedLines(texts, q.lines);
  }

  /** A tag list, whitespace that may cross line feeds, and an action: the
      action is taken from wherever the whitespace ends. */
  lemma TaggedText(os: seq<QuestOption>, w: string, a: string, text: string)
    requires WellFormedOptions(os) && Blank(w)
    requires a != [] && !IsMultispace(a[0])
    requires forall i :: 0 <= i < |a| ==> IsLineContent(a[i])
    requires text == "[" + Listed(os) + "]" + (w + a)
    ensures LineText(text, StageLine(Stage(a, Options(os))))
  {
    forall t | t == [] || t[0] == '\n'
      ensures ParseLine(text + t) == Done(StageLine(Stage(a, Options(os))), t)
    {
      TaggedLineAfter(os, w, a, t, text + t);
    }
  }

  lemma TaggedStageAfter(os: seq<QuestOption>, w: string, a: string, t: string, s: string)
    requires WellFormedOptions(os) && Blank(w)
    requires a != [] && !IsMultispace(a[0])
    requires forall i :: 0 <= i < |a| ==> IsLineContent(a[i])
    requires t == [] || t[0] == '\n'
    requires s == "[" + Listed(os) + "]" + (w + (a + t))
    ensures ParseStage(s) == Done(Stage(a, Options(os)), t)
  {
    assert s[0] == '[';
    Multispace0Of([], s);
    assert [] + s == s;
    OptionsRoundTrip(os, w + (a + t));
    Multispace0Of(w, a + t);
    NotLineEndingOf(a, t);
  }

  /** A line that starts with a bracket is a stage line. */
  lemma BracketLine(s: string)
    requires s != [] && s[0] == '['
    ensures ParseStage(s).Done? ==> ParseLine(s) == Done(StageLine(ParseStage(s).value), ParseStage(s).rest)
    ensures ParseStage(s).Error? ==> ParseLine(s).Error?
  {
    Multispace0Of([], s);
    assert [] + s == s;
  }

  lemma TaggedLineAfter(os: seq<QuestOption>, w: string, a: string, t: string, s: string)
    requires WellFormedOptions(os) && Blank(w)
    requires a != [] && !IsMultispace(a[0])
    requires forall i :: 0 <= i < |a| ==> IsLineContent(a[i])
    requires t == [] || t[0] == '\n'
    requires s == ("[" + Listed(os) + "]" + (w + a)) + t
    ensures ParseLine(s) == Done(StageLine(Stage(a, Options(os))), t)
  {
    var h := "[" + Listed(os) + "]";
    assert (h + (w + a)) + t == h + (w + (a + t));
    TaggedStageAfter(os, w, a, t, s);
    BracketLine(s);
  }

  /** A quest whose first line leaves something other than a line feed behind
      is rejected with that remainder in the message. */
  lemma LeftOver(s: string, l: Line, r: string)
    requires ParseLine(s) == Done(l, r)
    requires r != [] && r[0] != '\n'
    ensures Parse(s) == Err("Parse failed with remaining " + r)
  {
    LineListTailStops(r);
    ParseQuestStep(s, l, r, [], r);
  }

  /** A quest of one line that is consumed whole. */
  lemma SingleLine(s: string, l: Line)
    requires ParseLine(s) == Done(l, "")
    ensures ParseQuest(s) == Done(Quest([l]), "")
    ensures Parse(s) == Ok(Quest([l]))
  {
    LineListTailStops("");
    ParseQuestStep(s, l, "", [], "");
    assert [l] + [] == [l];
  }

  /** The separated lines, a line feed and one more line: the first line
      comes off the front, and what follows it starts with a line feed. */
  lemma SeparatedThen(texts: seq<string>, last: string)
    requires texts != []
    ensures Separated(texts, "\n") + ("\n" + last) ==
            "\n" + (texts[0] + (Separated(texts[1..], "\n") + ("\n" + last)))
    ensures (Separated(texts[1..], "\n") + ("\n" + last))[0] == '\n'
  {
  }

  /** A line of quest text followed by a line feed. */
  lemma FollowedLine(text: string, l: Line, t: string)
    requires LineText(text, l) && t != [] && t[0] == '\n'
    ensures ParseLine(text + t) == Done(l, t)
  {
  }

  lemma NewlineThen(s: string, u: string)
    requires s == "\n" + u
    ensures Newline(s) == Done('\n', u)
  {
    assert s[1..] == u;
  }

  /** One round of the repetition, when only what it leaves matters. */
  lemma LineListTailLeaves(s: string, s1: string, l: Line, t: string, r: string)
    requires Newline(s) == Done('\n', s1)
    requires ParseLine(s1) == Done(l, t)
    requires LineListTail(t).1 == r
    ensures LineListTail(s).1 == r
  {
  }

  /** The last line stops early right after a line feed. */
  lemma StoppedLast(last: string, l: Line, x: string)
    requires ParseLine(last) == Done(l, x) && x != [] && x[0] != '\n'
    ensures LineListTail("\n" + last).1 == x
  {
    NewlineThen("\n" + last, last);
    LineListTailStops(x);
    LineListTailLeaves("\n" + last, last, l, x, x);
  }

  /** One more whole line in front leaves the same remainder. */
  lemma StoppedStep(texts: seq<string>, l0: Line, last: string, x: string)
    requires texts != [] && LineText(texts[0], l0)
    requires LineListTail(Separated(texts[1..], "\n") + ("\n" + last)).1 == x
    ensures LineListTail(Separated(texts, "\n") + ("\n" + last)).1 == x
  {
    var rest := Separated(texts[1..], "\n") + ("\n" + last);
    var s := Separated(texts, "\n") + ("\n" + last);
    SeparatedThen(texts, last);
    FollowedLine(texts[0], l0, rest);
    NewlineThen(s, texts[0] + rest);
    LineListTailLeaves(s, texts[0] + rest, l0, rest, x);
  }

  /** Lines that each parse whole, then a line after which the repetition
      stops: it takes every line and leaves what it leaves after that line. */
  lemma {:induction false} StoppedLines(texts: seq<string>, ls: seq<Line>, last: string, x: string)
    requires |texts| == |ls|
    requires forall i :: 0 <= i < |ls| ==> LineText(texts[i], ls[i])
    requires LineListTail("\n" + last).1 == x
    ensures LineListTail(Separated(texts, "\n") + ("\n" + last)).1 == x
  {
    if ls == [] {
      assert Separated(texts, "\n") + ("\n" + last) == "\n" + last;
    } else {
      TailTexts(texts, ls);
      StoppedLines(texts[1..], ls[1..], last, x);
      assert LineText(texts[0], ls[0]);
      StoppedStep(texts, ls[0], last, x);
    }
  }

  lemma JoinThen(texts: seq<string>, last: string)
    requires texts != []
    ensures Join(texts + [last], "\n") == texts[0] + (Separated(texts[1..], "\n") + ("\n" + last))
  {
    JoinAppend(texts, last, "\n");
    assert (texts[0] + Separated(texts[1..], "\n")) + ("\n" + last) ==
           texts[0] + (Separated(texts[1..], "\n") + ("\n" + last));
  }

  /** Whole lines followed by a line that stops before something other than a
      line feed: `parse` fails and reports what that line left. */
  lemma StopsAfterLines(texts: seq<string>, ls: seq<Line>, last: string, l: Line, x: string)
    requires |texts| == |ls|
    requires forall i :: 0 <= i < |ls| ==> LineText(texts[i], ls[i])
    requires ParseLine(last) == Done(l, x) && x != [] && x[0] != '\n'
    ensures Parse(Join(texts + [last], "\n")) == Err("Parse failed with remaining " + x)
  {
    if texts == [] {
      assert texts + [last] == [last];
      LeftOver(last, l, x);
    } else {
      var rest := Separated(texts[1..], "\n") + ("\n" + last);
      var s := Join(texts + [last], "\n");
      JoinThen(texts, last);
      SeparatedThen(texts, last);
      TailTexts(texts, ls);
      StoppedLast(last, l, x);
      StoppedLines(texts[1..], ls[1..], last, x);
      FollowedLine(texts[0], ls[0], rest);
      ParseQuestStep(s, ls[0], rest, LineListTail(rest).0, x);
    }
  }

  /** Windows line endings are not accepted: a line without tags stops before
      the carriage return, which `newline` does not match, and the rest of the
      text is reported, whatever lines come before it. */
  lemma CarriageReturnRejected(texts: seq<string>, ls: seq<Line>, a: string, b: string)
    requires |texts| == |ls|
    requires forall i :: 0 <= i < |ls| ==> LineText(texts[i], ls[i])
    requires Plain(a)
    ensures Parse(Join(texts + [a + ("\r\n" + b)], "\n")) == Err("Parse failed with remaining " + ("\r\n" + b))
  {
    PlainLine(a, "\r\n" + b);
    StopsAfterLines(texts, ls, a + ("\r\n" + b), StageLine(Stage(a, Options([]))), "\r\n" + b);
  }

  /** Anything after a marker on its line, even a space, is left over, so the
      parse fails, whatever lines come before it. */
  lemma TextAfterMarkerRejected(texts: seq<string>, ls: seq<Line>, w: string, x: string)
    requires |texts| == |ls|
    requires forall i :: 0 <= i < |ls| ==> LineText(texts[i], ls[i])
    requires Blank(w)
    requires x != [] && x[0] != '\n'
    ensures Parse(Join(texts + [w + ("---" + x)], "\n")) == Err("Parse failed with remaining " + x)
  {
    MarkerAt(w, x, w + ("---" + x));
    StopsAfterLines(texts, ls, w + ("---" + x), Now, x);
  }
}

=== FILE: render.dfy ===
/** The HTML renderer: one block per parsed line, each stage classed by
    whether it lies after the "you are here" marker. */
module Render {
  import opened Wrappers
  import opened Strings
  import opened Parser

  const EVENT_GLYPH: string := "&#x2139;&#xFE0F"
  const BOSS_GLYPH: string := "&#x1F3C1"
  const MINIBOSS_GLYPH: string := "&#x1F47E"

  /** How a past or present stage block, a future one and the marker block
      begin. */
  const STAGE_OPEN: string := "\n<div class=\"stage\">"
  const FUTURE_OPEN: string := "\n<div class=\"stage future\">"
  const HERE_OPEN: string := "\n<div class=\"stage-now\">"

  /** `encode`: the glyph of a known tag; unknown tags have none. */
  function Encode(o: QuestOption): (r: Option<string>)
    ensures r.None? <==> o.Other?
    ensures r.Some? ==> r.value != []
  {
    match o
    case Event => Some(EVENT_GLYPH)
    case Boss => Some(BOSS_GLYPH)
    case Miniboss => Some(MINIBOSS_GLYPH)
    case Other(_) => None
  }

  /** `image_tag`: a glyph in a `quest-image` span, or the unknown tag's name
      in an `em`. The source panics when a known tag has no glyph; `Encode`
      rules that out, so the function is total. */
  function ImageTag(o: QuestOption): (r: string)
    ensures o.Other? ==> r == "<em class=\"quest-other\">" + o.name + "</em>"
    ensures !o.Other? ==> r == "<span class=\"quest-image\">" + Encode(o).value + "</span>"
  {
    match Encode(o)
    case Some(emoji) => "<span class=\"quest-image\">" + emoji + "</span>"
    case None =>
      if o.Other? then "<em class=\"quest-other\">" + o.name + "</em>"
      else assert false; ""
  }

  /** The symbols of a tag list, one per tag, in order. */
  function Symbols(os: seq<QuestOption>): seq<string> {
    seq(|os|, i requires 0 <= i < |os| => ImageTag(os[i]))
  }

  /** `html_options`: the symbols joined with `&nbsp;` inside a
      `quest-options` div, or nothing at all when there are no symbols. */
  function HtmlOptions(options: Options): (r: string)
    ensures r == [] <==> options.options == []
    ensures options.options != [] ==>
              r == "<div class=\"quest-options\">" + Join(Symbols(options.options), "&nbsp;") + "</div>"
  {
    var concatenated := Join(Symbols(options.options), "&nbsp;");
    if concatenated == [] then concatenated
    else "<div class=\"quest-options\">" + concatenated + "</div>"
  }

  /** `iter().any(...)` over the tags: is some tag `Boss` or `Miniboss`? */
  function AnyImportant(os: seq<QuestOption>): (r: bool)
    ensures r <==> exists i :: 0 <= i < |os| && (os[i].Boss? || os[i].Miniboss?)
  {
    if os == [] then false
    else os[0].Boss? || os[0].Miniboss? || AnyImportant(os[1..])
  }

  /** The class of a stage's action span. */
  function ActionClass(options: Options): (r: string)
    ensures r == "quest-action quest-important" <==>
              exists i :: 0 <= i < |options.options| && (options.options[i].Boss? || options.options[i].Miniboss?)
    ensures r == "quest-action" || r == "quest-action quest-important"
  {
    if AnyImportant(options.options) then "quest-action quest-important" else "quest-action"
  }

  /** The class of a stage's outer div. */
  function StageClass(isFuture: bool): (r: string)
    ensures r == "stage future" <==> isFuture
    ensures r == "stage" <==> !isFuture
  {
    if isFuture then "stage future" else "stage"
  }

  lemma PrefixOfConcat(p: string, y: string)
    ensures StartsWith(p + y, p)
  {
    assert (p + y)[..|p|] == p;
  }

  /** The three kinds of block differ in their 19th character: the quote
      closing `stage`, the space before `future`, or the dash of
      `stage-now`. */
  lemma OpeningsExclusive(s: string)
    ensures StartsWith(s, STAGE_OPEN) ==> !StartsWith(s, FUTURE_OPEN) && !StartsWith(s, HERE_OPEN)
    ensures StartsWith(s, FUTURE_OPEN) ==> !StartsWith(s, HERE_OPEN)
  {
    assert STAGE_OPEN[18] == '"' && FUTURE_OPEN[18] == ' ' && HERE_OPEN[18] == '-';
    if StartsWith(s, STAGE_OPEN) {
      assert s[18] == s[..|STAGE_OPEN|][18] == STAGE_OPEN[18];
    }
    if StartsWith(s, FUTURE_OPEN) {
      assert s[18] == s[..|FUTURE_OPEN|][18] == FUTURE_OPEN[18];
    }
    if StartsWith(s, HERE_OPEN) {
      assert s[18] == s[..|HERE_OPEN|][18] == HERE_OPEN[18];
    }
  }

  /** The opening tag of a stage div. */
  function StageOpening(isFuture: bool): (r: string)
    ensures r == if isFuture then FUTURE_OPEN else STAGE_OPEN
  {
    "\n<div class=\"" + StageClass(isFuture) + "\">"
  }

  /** `html_stage`: the stage div with the tag symbols and the action span.
      The action is inserted as it is, without escaping. */
  function HtmlStage(stage: Stage, isFuture: bool): string {
    StageOpening(isFuture) + StageBody(stage)
  }

  /** What follows the opening tag of a stage div. */
  function StageBody(stage: Stage): string {
    "\n    " + HtmlOptions(stage.options) +
    "\n    <span class=\"" + ActionClass(stage.options) + "\">" + stage.action + "</span>\n</div>"
  }

  /** `here_stage`: the fixed block that stands for the marker. */
  function HereStage(): string {
    HERE_OPEN + "\n    YOU ARE HERE\n</div>"
  }

  /** The block of one line, given whether the marker has been seen. */
  function LineBlock(line: Line, isFuture: bool): string {
    match line
    case Now => HereStage()
    case StageLine(stage) => HtmlStage(stage, isFuture)
  }

  /** A stage block opens as a future stage exactly when the flag is raised,
      as a plain stage exactly when it is not, and never as the marker. */
  lemma StageBlockOpening(stage: Stage, isFuture: bool)
    ensures StartsWith(HtmlStage(stage, isFuture), FUTURE_OPEN) <==> isFuture
    ensures StartsWith(HtmlStage(stage, isFuture), STAGE_OPEN) <==> !isFuture
    ensures !StartsWith(HtmlStage(stage, isFuture), HERE_OPEN)
  {
    PrefixOfConcat(StageOpening(isFuture), StageBody(stage));
    OpeningsExclusive(HtmlStage(stage, isFuture));
  }

  /** The marker block opens as the marker and as no kind of stage. */
  lemma HereOpening()
    ensures StartsWith(HereStage(), HERE_OPEN)
    ensures !StartsWith(HereStage(), STAGE_OPEN) && !StartsWith(HereStage(), FUTURE_OPEN)
  {
    PrefixOfConcat(HERE_OPEN, "\n    YOU ARE HERE\n</div>");
    OpeningsExclusive(HereStage());
  }

  /** Only a marker gives the marker block; a stage's block is classed by the
      flag. */
  lemma BlockOpening(line: Line, isFuture: bool)
    ensures StartsWith(LineBlock(line, isFuture), HERE_OPEN) <==> line.Now?
    ensures line.StageLine? ==> (StartsWith(LineBlock(line, isFuture), FUTURE_OPEN) <==> isFuture)
    ensures line.StageLine? ==> (StartsWith(LineBlock(line, isFuture), STAGE_OPEN) <==> !isFuture)
  {
    match line
    case Now => HereOpening();
    case StageLine(stage) => StageBlockOpening(stage, isFuture);
  }

  /** What the loop of `generate` pushes for the remaining `lines` when the
      flag stands at `isFuture` and each line is rendered by `block`: the
      flag is raised by the first marker and never lowered. */
  function RenderFrom(lines: seq<Line>, isFuture: bool, block: (Line, bool) -> string): (r: seq<string>)
    ensures |r| == |lines|
  {
    if lines == [] then []
    else
      var future := isFuture || lines[0].Now?;
      [block(lines[0], future)] + RenderFrom(lines[1..], future, block)
  }

  /** The blocks of a whole quest: the loop starts with the flag lowered. */
  function Blocks(lines: seq<Line>): (r: seq<string>)
    ensures |r| == |lines|
  {
    RenderFrom(lines, false, LineBlock)
  }

  lemma RenderStep(lines: seq<Line>, isFuture: bool, block: (Line, bool) -> string)
    requires lines != []
    ensures RenderFrom(lines, isFuture, block) ==
            [block(lines[0], isFuture || lines[0].Now?)] + RenderFrom(lines[1..], isFuture || lines[0].Now?, block)
  {
  }

  /** One turn of the loop: the block of line `i` moves from the blocks still
      to come to the output. */
  lemma RenderNext(lines: seq<Line>, i: nat, isFuture: bool, block: (Line, bool) -> string, output: seq<string>)
    requires i < |lines|
    ensures output + RenderFrom(lines[i..], isFuture, block) ==
            (output + [block(lines[i], isFuture || lines[i].Now?)]) +
            RenderFrom(lines[i + 1..], isFuture || lines[i].Now?, block)
  {
    RenderStep(lines[i..], isFuture, block);
    assert lines[i..][0] == lines[i] && lines[i..][1..] == lines[i + 1..];
  }

  /** The loop of `generate`: one pass over the lines that raises the
      "future" flag at the first marker and pushes one block per line. */
  method RenderLines(lines: seq<Line>) returns (output: seq<string>)
    ensures output == Blocks(lines)
  {
    output := [];
    var isFuture := false;
    for i := 0 to |lines|
      invariant output + RenderFrom(lines[i..], isFuture, LineBlock) == Blocks(lines)
    {
      var line := lines[i];
      RenderNext(lines, i, isFuture, LineBlock, output);
      isFuture := isFuture || line.Now?;
      var htmlCode := match line
        case Now => HereStage()
        case StageLine(stage) => HtmlStage(stage, isFuture);
      assert htmlCode == LineBlock(line, isFuture);
      output := output + [htmlCode];
    }
    assert lines[|lines|..] == [];
  }

  /** `generate`: parse, render every line and join the blocks with line
      feeds. A parse error is passed on unchanged. */
  method Generate(questString: string) returns (r: Result<string>)
    ensures Parse(questString).Err? ==> r == Err(Parse(questString).error)
    ensures Parse(questString).Ok? ==> r == Ok(Join(Blocks(Parse(questString).value.lines), "\n"))
  {
    var parsed := Parse(questString);
    if parsed.Err? {
      return Err(parsed.error);
    }
    var output := RenderLines(parsed.value.lines);
    return Ok(Join(output, "\n"));
  }
}

=== FILE: render_examples.dfy ===
/** The renderer's unit tests, worked through on the parsed sample quest and
    on a one-line quest with an unknown tag. */
module RenderExamples {
  import opened Wrappers
  import opened Strings
  import opened Parser
  import opened ParserLemmas
  import opened ParserExamples
  import opened Render
  import opened RenderLemmas

  const EVENT_SPAN: string := "<span class=\"quest-image\">&#x2139;&#xFE0F</span>"
  const BOSS_SPAN: string := "<span class=\"quest-image\">&#x1F3C1</span>"
  const UNKNOWN_EM: string := "<em class=\"quest-other\">unknown</em>"

  /** The sample quest renders successfully, as its five blocks joined by
      line feeds. */
  method GenerateSample() returns (r: Result<string>)
    ensures r == Ok(Join(Blocks(SampleQuest().lines), "\n"))
  {
    SampleParse();
    r := Generate(SAMPLE1);
  }

  /** Of the sample's four stages the two before the marker are `stage` and
      the two after it `stage future`; the marker is the fixed block. The
      parameter only names the sample's lines, so that the solver works with
      one term instead of unfolding the sample quest in every clause. */
  lemma SampleClasses(lines: seq<Line>)
    requires lines == SampleQuest().lines
    ensures StartsWith(Blocks(lines)[0], STAGE_OPEN) && StartsWith(Blocks(lines)[1], STAGE_OPEN)
    ensures Blocks(lines)[2] == HereStage()
    ensures StartsWith(Blocks(lines)[3], FUTURE_OPEN) && StartsWith(Blocks(lines)[4], FUTURE_OPEN)
  {
    FutureIffAfterMarker(lines, 0);
    FutureIffAfterMarker(lines, 1);
    HereIffNow(lines, 2);
    FutureIffAfterMarker(lines, 3);
    FutureIffAfterMarker(lines, 4);
  }

  /** The last stage is rendered as a future stage. The parameter only names
      the sample's lines, as in `SampleClasses`. */
  lemma SampleLastBlock(lines: seq<Line>)
    requires lines == SampleQuest().lines
    ensures Blocks(lines)[4] == HtmlStage(Stage("third", Options([Event, Boss])), true)
  {
    BlockAt(lines, 4);
    assert Now in lines[..5] by {
      assert lines[..5][2] == Now;
    }
  }

  /** The last stage carries `event` and `boss`: the Event symbol, `&nbsp;`,
      then the Boss symbol, and its action is marked important. */
  lemma SampleLastSymbols()
    ensures HtmlOptions(Options([Event, Boss])) ==
            "<div class=\"quest-options\">" + EVENT_SPAN + "&nbsp;" + BOSS_SPAN + "</div>"
  {
    EventSpan();
    BossSpan();
    TwoSymbols(Event, Boss);
  }

  lemma SampleLastImportant()
    ensures ActionClass(Options([Event, Boss])) == "quest-action quest-important"
  {
    ImportantStage(Options([Event, Boss]), Boss);
  }

  lemma EventSpan()
    ensures ImageTag(Event) == EVENT_SPAN
  {
  }

  lemma UnknownEm()
    ensures ImageTag(Other("unknown")) == UNKNOWN_EM
  {
  }

  lemma BossSpan()
    ensures ImageTag(Boss) == BOSS_SPAN
  {
  }

  const FIFTH: string := "[event,unknown] fifth"

  function FifthLine(): Line {
    StageLine(Stage("fifth", Options([Event, Other("unknown")])))
  }

  lemma FifthListed()
    ensures Listed([Event, Other("unknown")]) == "event,unknown"
  {
    assert ListedTail([Other("unknown")]) == ",unknown";
  }

  lemma FifthPrinted()
    ensures PrintLine(FifthLine()) == FIFTH
  {
    FifthListed();
    assert FIFTH == "[" + "event,unknown" + "] " + "fifth";
  }

  lemma FifthWellFormed()
    ensures WellFormedLine(FifthLine())
  {
    var name := "unknown";
    assert name[..5][0] != "event"[0] && name[..4][0] != "boss"[0] && |name| < |"miniboss"|;
    assert WellFormedOption(Other(name));
    assert WellFormedOptions([Event, Other(name)]);
  }

  lemma FifthParse()
    ensures Parse(FIFTH) == Ok(Quest([FifthLine()]))
  {
    FifthPrinted();
    FifthWellFormed();
    PrintedLineText(FifthLine());
    JoinedLines([FIFTH], [FifthLine()]);
  }

  /** `[event,unknown] fifth` renders as one `stage` block showing the Event
      symbol and then the unknown tag's name in an `em`. */
  lemma FifthRender()
    ensures Parse(FIFTH).Ok?
    ensures StartsWith(Blocks(Parse(FIFTH).value.lines)[0], STAGE_OPEN)
  {
    FifthParse();
    FutureIffAfterMarker([FifthLine()], 0);
  }

  lemma FifthSymbols()
    ensures HtmlOptions(Options([Event, Other("unknown")])) ==
            "<div class=\"quest-options\">" + EVENT_SPAN + "&nbsp;" + UNKNOWN_EM + "</div>"
  {
    EventSpan();
    UnknownEm();
    TwoSymbols(Event, Other("unknown"));
  }
}

=== FILE: render_lemmas.dfy ===
/** What the rendered blocks say about the quest: one block per line, the
    marker block exactly at markers, and the "future" class exactly on the
    stages after the first marker. */
module RenderLemmas {
  import opened Strings
  import opened Parser
  import opened Render

  // ---------------------------------------------------------------------------
  // Tag symbols.

  lemma SpanNotEm(g: string, name: string)
    ensures "<span class=\"quest-image\">" + g + "</span>" != "<em class=\"quest-other\">" + name + "</em>"
  {
    assert ("<span class=\"quest-image\">" + g + "</span>")[1] == 's';
    assert ("<em class=\"quest-other\">" + name + "</em>")[1] == 'e';
  }

  lemma Unwrap(p: string, a: string, b: string, q: string)
    requires p + a + q == p + b + q
    ensures a == b
  {
    assert |a| == |b|;
    assert a == (p + a + q)[|p|..|p| + |a|];
    assert b == (p + b + q)[|p|..|p| + |b|];
  }

  /** Different tags never render to the same symbol, so the rendered list
      shows which tags the stage carries. */
  lemma ImageTagInjective(a: QuestOption, b: QuestOption)
    requires ImageTag(a) == ImageTag(b)
    ensures a == b
  {
    var span := "<span class=\"quest-image\">";
    var em := "<em class=\"quest-other\">";
    if a.Other? && b.Other? {
      Unwrap(em, a.name, b.name, "</em>");
    } else if a.Other? {
      SpanNotEm(Encode(b).value, a.name);
    } else if b.Other? {
      SpanNotEm(Encode(a).value, b.name);
    } else {
      Unwrap(span, Encode(a).value, Encode(b).value, "</span>");
      assert EVENT_GLYPH[3] == '2' && BOSS_GLYPH[3] == '1' && MINIBOSS_GLYPH[3] == '1';
      assert BOSS_GLYPH[5] == '3' && MINIBOSS_GLYPH[5] == '4';
    }
  }

  lemma JoinTwo(x: string, y: string, sep: string)
    ensures Join([x, y], sep) == x + (sep + y)
  {
    assert [x, y][1..] == [y];
    assert Separated([y], sep) == sep + (y + Separated([], sep));
  }

  /** Regrouping the pieces of a wrapped two-part join; kept out of line,
      since with the literal wrapper in scope the solver does not find it. */
  lemma Regroup5(p: string, x: string, s: string, y: string, q: string)
    ensures p + (x + (s + y)) + q == p + x + s + y + q
  {
  }

  /** Two tags are shown as their two symbols with `&nbsp;` between them. */
  lemma TwoSymbols(a: QuestOption, b: QuestOption)
    ensures HtmlOptions(Options([a, b])) ==
            "<div class=\"quest-options\">" + ImageTag(a) + "&nbsp;" + ImageTag(b) + "</div>"
  {
    assert Symbols([a, b]) == [ImageTag(a), ImageTag(b)];
    JoinTwo(ImageTag(a), ImageTag(b), "&nbsp;");
    Regroup5("<div class=\"quest-options\">", ImageTag(a), "&nbsp;", ImageTag(b), "</div>");
  }

  /** Adding a tag at the end appends its symbol: symbols keep the order of
      the tags. */
  lemma SymbolsAppend(os: seq<QuestOption>, o: QuestOption)
    ensures Symbols(os + [o]) == Symbols(os) + [ImageTag(o)]
  {
  }

  lemma OptionsAppend(os: seq<QuestOption>, o: QuestOption)
    requires os != []
    ensures HtmlOptions(Options(os + [o])) ==
            "<div class=\"quest-options\">" + Join(Symbols(os), "&nbsp;") + "&nbsp;" + ImageTag(o) + "</div>"
  {
    SymbolsAppend(os, o);
    JoinAppend(Symbols(os), ImageTag(o), "&nbsp;");
    assert Join(Symbols(os + [o]), "&nbsp;") == Join(Symbols(os), "&nbsp;") + "&nbsp;" + ImageTag(o);
  }

  // ---------------------------------------------------------------------------
  // Blocks.

  /** The flag after line `i` of the remaining lines. */
  lemma SeenAfterStep(lines: seq<Line>, isFuture: bool, i: nat)
    requires 0 < i < |lines|
    ensures ((isFuture || lines[0].Now?) || Now in lines[1..][..i]) == (isFuture || Now in lines[..i + 1])
  {
    assert lines[..i + 1] == [lines[0]] + lines[1..][..i];
  }

  /** Element `i` of the fold is line `i` rendered with the flag as it stands
      after that line. */
  lemma {:induction false} RenderFromAt(lines: seq<Line>, isFuture: bool, block: (Line, bool) -> string, i: nat)
    requires i < |lines|
    ensures RenderFrom(lines, isFuture, block)[i] == block(lines[i], isFuture || Now in lines[..i + 1])
  {
    var future := isFuture || lines[0].Now?;
    RenderStep(lines, isFuture, block);
    if i > 0 {
      RenderFromAt(lines[1..], future, block, i - 1);
      SeenAfterStep(lines, isFuture, i);
      assert lines[1..][i - 1] == lines[i];
    } else {
      assert lines[..1] == [lines[0]];
    }
  }

  /** Block `i` is the block of line `i`, rendered as a future stage exactly
      when a marker occurs at or before it. */
  lemma BlockAt(lines: seq<Line>, i: nat)
    requires i < |lines|
    ensures Blocks(lines)[i] == LineBlock(lines[i], Now in lines[..i + 1])
  {
    RenderFromAt(lines, false, LineBlock, i);
  }

  /** Every marker, and nothing else, becomes the fixed "you are here" block. */
  lemma HereIffNow(lines: seq<Line>, i: nat)
    requires i < |lines|
    ensures StartsWith(Blocks(lines)[i], HERE_OPEN) <==> lines[i].Now?
    ensures lines[i].Now? ==> Blocks(lines)[i] == HereStage()
  {
    BlockAt(lines, i);
    BlockOpening(lines[i], Now in lines[..i + 1]);
  }

  /** A stage is rendered as `stage future` exactly when a marker comes
      before it, and as `stage` exactly when none does. */
  lemma FutureIffAfterMarker(lines: seq<Line>, i: nat)
    requires i < |lines| && lines[i].StageLine?
    ensures StartsWith(Blocks(lines)[i], FUTURE_OPEN) <==> exists j :: 0 <= j < i && lines[j].Now?
    ensures StartsWith(Blocks(lines)[i], STAGE_OPEN) <==> forall j :: 0 <= j < i ==> !lines[j].Now?
  {
    BlockAt(lines, i);
    BlockOpening(lines[i], Now in lines[..i + 1]);
    MarkerBefore(lines, i);
  }

  lemma MarkerBefore(lines: seq<Line>, i: nat)
    requires i < |lines| && lines[i].StageLine?
    ensures (Now in lines[..i + 1]) <==> exists j :: 0 <= j < i && lines[j].Now?
  {
    if Now in lines[..i + 1] {
      var j :| 0 <= j < i + 1 && lines[..i + 1][j] == Now;
      assert lines[j].Now?;
    }
    if exists j :: 0 <= j < i && lines[j].Now? {
      var j :| 0 <= j < i && lines[j].Now?;
      assert lines[..i + 1][j] == Now;
    }
  }

  /** The flag never drops: once a stage is in the future, so is every later
      stage. */
  lemma FutureStaysFuture(lines: seq<Line>, i: nat, j: nat)
    requires i <= j < |lines| && lines[i].StageLine? && lines[j].StageLine?
    requires StartsWith(Blocks(lines)[i], FUTURE_OPEN)
    ensures StartsWith(Blocks(lines)[j], FUTURE_OPEN)
  {
    FutureIffAfterMarker(lines, i);
    FutureIffAfterMarker(lines, j);
  }

  /** A stage carrying `Boss` or `Miniboss` is marked important, whatever
      else it carries. */
  lemma ImportantStage(options: Options, o: QuestOption)
    requires o.Boss? || o.Miniboss?
    requires o in options.options
    ensures ActionClass(options) == "quest-action quest-important"
  {
    var i :| 0 <= i < |options.options| && options.options[i] == o;
  }
}

=== FILE: strings.dfy ===
/** Joining strings with a separator, as Rust's `[String]::join` does. */
module Strings {

  predicate StartsWith(s: string, prefix: string) {
    |prefix| <= |s| && s[..|prefix|] == prefix
  }

  /** The parts one after another, with `sep` between neighbours. */
  function Join(parts: seq<string>, sep: string): (r: string)
    ensures parts == [] ==> r == []
    ensures |parts| == 1 ==> r == parts[0]
    ensures parts != [] ==> StartsWith(r, parts[0])
  {
    if parts == [] then [] else parts[0] + Separated(parts[1..], sep)
  }

  /** Every part preceded by `sep`. */
  function Separated(parts: seq<string>, sep: string): string {
    if parts == [] then [] else sep + (parts[0] + Separated(parts[1..], sep))
  }

  /** Adding a part at the end appends the separator and the part. */
  lemma {:induction false} SeparatedAppend(parts: seq<string>, x: string, sep: string)
    ensures Separated(parts + [x], sep) == Separated(parts, sep) + (sep + x)
  {
    if parts == [] {
      assert Separated([x], sep) == sep + (x + Separated([], sep));
    } else {
      assert (parts + [x])[1..] == parts[1..] + [x];
      SeparatedAppend(parts[1..], x, sep);
    }
  }

  lemma JoinAppend(parts: seq<string>, x: string, sep: string)
    requires parts != []
    ensures Join(parts + [x], sep) == Join(parts, sep) + sep + x
  {
    assert (parts + [x])[1..] == parts[1..] + [x];
    SeparatedAppend(parts[1..], x, sep);
  }
}

=== FILE: wrappers.dfy ===
/** Option and Result values shared by the parser and the renderer. */
module Wrappers {

  /** Rust's `Option<T>`. */
  datatype Option<+T> = None | Some(value: T)

  /** `anyhow::Result<T>`: a value, or an error carrying its message. */
  datatype Result<+T> = Ok(value: T) | Err(error: string)
}
